=== FILE: README.md ===
# local-tts-mcp in Dafny

A model of the core of local-tts-mcp. It covers two parts.

The first is the local text-to-speech service and its clients:
- the MCP `speak` tool;
- the socket client with its hand-built HTTP framing;
- the background service, which takes requests, resolves voices, splits text into chunks, runs the worker loop and plays audio in ticket order;
- the memory manager;
- the cross-process inference lock, a file-based FIFO ticket queue with an instance registry.

The second is the Pocket TTS server of the sub-project: the scenario engine and its `generate_speech` tool.

All operations are pure functions over immutable values. Two exceptions are methods with loops: the text chunker and the lock's wait loop. Everything outside the program's own logic comes in as a parameter:
- directory listings;
- `os.kill` answers;
- clocks;
- memory readings;
- JSON encoding;
- the socket exchange;
- model loading;
- audio generation and playback.

Modules, one per file:

| module | file | models |
|---|---|---|
| `Wrappers` | wrappers.dfy | `Option` and `Result` |
| `Text` | text.dfy | `str.split()`, `str.split(' ')`, `strip`, `" ".join` |
| `Chunking` | chunking.dfy | `split_text` |
| `Lex` | lex.dfy | Python's string order and `sorted` |
| `Decimal` | decimal.dfy | decimal digit strings and `:020d` zero padding |
| `Posix` | posix.dfy | `_pid_alive`, directory entries, unlinking, `Path.suffix` |
| `Registry` | registry.dfy | the instance registry of system_lock.py |
| `TicketQueue` | ticket_queue.dfy | the ticket queue and `inference_lock` of system_lock.py |
| `Json` | json.dfy | JSON values, `dict.get`, truthiness, `len` |
| `Framing` | framing.dfy | the bytes `_send_request` writes and how it splits the reply |
| `Client` | client.dfy | `TTSClient` |
| `Playback` | playback.dfy | `PlaybackCoordinator` |
| `Service` | service.dfy | request intake, voice resolution, model lifecycle, the worker's handling of one task |
| `Worker` | worker.dfy | the worker and playback threads as a transition system |
| `Resources` | resources.dfy | `ResourceManager` |
| `FrontEnd` | frontend.dfy | the `speak` tool of server.py |
| `PocketEngine` | pocket_engine.dfy | `PocketTTSEngine` |
| `PocketServer` | pocket_server.dfy | `generate_speech` |

Two properties hold only under side conditions stricter than their natural statement.

Splitting a reply at its first blank line gives back the body only when the header block does two things:
- it contains no `\r\n\r\n`;
- it does not itself end in `\r\n`.

If it ends in `\r\n`, the first blank line starts one position early. `Framing.SplitRoundTripNeedsNoTrailingCRLF` exhibits this with the header `x\r\n`. The header `_send_request` builds never ends that way, so `Framing.RequestRoundTrip` holds with no side condition beyond line-break-free verb and endpoint.

The ticket names of system_lock.py sort in time order only while the nanosecond timestamp fits in the 20 digits of the padding. `TicketQueue.TicketNameOrder` states it with that bound.

## Model

| member | source | states |
|---|---|---|
| Text.Strip | src/local_tts/service.py:195 | `strip()` removes only whitespace and only at the ends. The result is empty exactly when the text is blank. |
| Text.Words | src/local_tts/service.py:190 | `split()` gives non-empty, whitespace-free words. Together they hold exactly the text's non-whitespace characters, in order. |
| Text.Normalize | src/local_tts/service.py:190 | `" ".join(text.split())` gives single-spaced text with no space at either end. It keeps the same non-whitespace content and is empty exactly when the text is blank. |
| Text.JoinOfWords | src/local_tts/service.py:190 | Joining whitespace-free words with single spaces gives normal text with the words' content. |
| Text.SplitOnSpace | src/local_tts/service.py:203 | `split(' ')` gives at least one piece. No piece holds a space, and joining the pieces with spaces gives the input back. |
| Text.SplitOnSpaceOfNormal | src/local_tts/service.py:190-203 | On normalised text, `split(' ')` gives non-empty, whitespace-free words whose concatenation is the text's content. |
| Chunking.SplitSentences | src/local_tts/service.py:193 | The split after `.`, `!` or `?` followed by whitespace gives at least one piece and loses no non-whitespace character. |
| Chunking.SentencesOfNormal | src/local_tts/service.py:190-193 | Every sentence of a normalised text is itself normalised. |
| Chunking.Flush | src/local_tts/service.py:199-201 | Appending the stripped current chunk keeps every finished chunk well formed and keeps the emitted content. |
| Chunking.Push | src/local_tts/service.py:209-219 | One packing step appends a piece to the chunk under construction, or flushes and restarts with it. Either way the emitted content grows by exactly the piece's content. |
| Chunking.PackSlices | src/local_tts/service.py:206-213 | Packing the `max_length` slices of an over-long word emits exactly the word. Every finished chunk stays within the limit. |
| Chunking.PackWordList | src/local_tts/service.py:205-219 | Packing a list of words emits exactly their concatenation after what was emitted before, within the limit. |
| Chunking.PackWords | src/local_tts/service.py:202-220 | An over-long sentence is packed word by word with nothing lost. |
| Chunking.AddSentence | src/local_tts/service.py:195-222 | One sentence is added to the chunks with its content kept. A chunk is never longer than `max_length`. |
| Chunking.PackSentences | src/local_tts/service.py:194-222 | Packing all sentences emits exactly their non-whitespace content, in order. |
| Chunking.SplitText | src/local_tts/service.py:187-224 | Every chunk is non-empty, has no whitespace at either end and is at most `max_length` long. The chunks hold exactly the text's non-whitespace characters, in order. There are no chunks exactly when the text is blank. |
| Lex.LessIsFirstDifference | src/local_tts/system_lock.py:239-246 | Python's string `<` is the first-difference (or proper-prefix) order. |
| Lex.Irreflexive | src/local_tts/system_lock.py:239-246 | No name sorts before itself. |
| Lex.Asymmetric | src/local_tts/system_lock.py:239-246 | Two names never sort before each other. |
| Lex.Transitive | src/local_tts/system_lock.py:239-246 | The order is transitive. |
| Lex.Trichotomy | src/local_tts/system_lock.py:239-246 | Any two names are equal or one sorts before the other. |
| Lex.LessExtend | src/local_tts/system_lock.py:194 | Between equal-length prefixes the order is decided by the prefix, whatever follows. |
| Lex.Insert | src/local_tts/system_lock.py:245 | Inserting into a sorted list keeps it sorted and adds exactly the one element. |
| Lex.Sort | src/local_tts/system_lock.py:245 | `sorted` returns a sorted permutation of its input. |
| Lex.StrictlySorted | src/local_tts/system_lock.py:245 | A sorted list of distinct names is strictly increasing. |
| Lex.DistinctPermutation | src/local_tts/system_lock.py:245 | A permutation of distinct names has distinct names. |
| Decimal.ValueOfShow | src/local_tts/system_lock.py:194 | `str(n)` reads back as `n`. |
| Decimal.ShowLength | src/local_tts/system_lock.py:194 | `str(n)` fits in `k` digits exactly when `n < 10^k`. |
| Decimal.ZeroPadFacts | src/local_tts/system_lock.py:194 | `f"{n:020d}"` has exactly 20 digits and reads back as `n`, for `n < 10^20`. |
| Decimal.PadOrder | src/local_tts/system_lock.py:194 | Zero-padded numbers of one width compare as strings exactly as they compare as numbers. |
| Decimal.DigitOrder | src/local_tts/system_lock.py:194 | Equal-length digit strings compare as strings exactly as their values compare. |
| Posix.PidAlive | src/local_tts/system_lock.py:58-70 | `_pid_alive` answers true exactly when the pid is positive and signal 0 is delivered or refused for permission. It answers false for any other pid in range. A pid above 2147483647 makes `os.kill` raise `OverflowError`, which escapes. |
| Posix.Filter | src/local_tts/system_lock.py:213-237 | Cleanup keeps exactly the entries that are not removed, with names still distinct. |
| Posix.Unlink | src/local_tts/system_lock.py:206-211 | Unlinking a name removes exactly the entries of that name. |
| Posix.SuffixIs | src/local_tts/system_lock.py:175 | `Path.suffix == ".json"` holds exactly when the name is longer than the suffix and ends with it. |
| Registry.RecordFileName | src/local_tts/system_lock.py:175 | A registry file is one whose name has the suffix `.json`. |
| Registry.CleanupStaleRegistry | src/local_tts/system_lock.py:170-187 | Cleanup removes exactly the unreadable records and the records of dead processes. |
| Registry.SurvivorsAlive | src/local_tts/system_lock.py:170-187 | After cleanup every registry file holds a readable record of a live process. |
| Registry.OverflowRecordPurged | src/local_tts/system_lock.py:177-187 | A record whose pid `os.kill` rejects is unlinked by the cleanup, because the escaping error lands in its `except`. |
| Registry.SortByStart | src/local_tts/system_lock.py:383 | Sorting by start time gives a permutation in non-decreasing start time. |
| Registry.Readable | src/local_tts/system_lock.py:377-383 | The readable records are exactly the contents of the readable registry files. |
| Registry.ActiveInstances | src/local_tts/system_lock.py:371-384 | `get_active_instances` lists exactly the records of live processes found after cleanup, ordered by start time. |
| Registry.Register | src/local_tts/system_lock.py:150-160 | `_register` writes the instance's record and leaves every other file as it was. |
| Registry.Deregister | src/local_tts/system_lock.py:162-168 | `_deregister` removes exactly the instance's file. |
| Registry.RegisteredIsListed | src/local_tts/system_lock.py:150-160 | A registered live instance is listed by `get_active_instances`. |
| Registry.DeregisteredIsGone | src/local_tts/system_lock.py:162-168 | After deregistering, everything listed comes from another instance's file. |
| TicketQueue.TicketName | src/local_tts/system_lock.py:194 | A ticket file name ends in `.ticket`. |
| TicketQueue.TicketNameOrder | src/local_tts/system_lock.py:194 | Ticket names order exactly as their creation times, whatever the pids, while the times fit in 20 digits. |
| TicketQueue.CreateTicket | src/local_tts/system_lock.py:191-204 | `_create_ticket` writes one ticket with the pid and time, and leaves every other file as it was. |
| TicketQueue.RemoveTicket | src/local_tts/system_lock.py:206-211 | `_remove_ticket` removes exactly that ticket; a missing one is no error. |
| TicketQueue.CleanupStaleTickets | src/local_tts/system_lock.py:213-237 | Cleanup removes exactly the stale tickets: unreadable, of a dead process, or over 300 s old. |
| TicketQueue.OverflowTicketPurged | src/local_tts/system_lock.py:221-237 | A ticket whose pid `os.kill` rejects is removed, however fresh it is. |
| TicketQueue.TicketNames | src/local_tts/system_lock.py:239-246 | The ticket names are exactly the names ending in `.ticket`, without repeats. |
| TicketQueue.SortedTickets | src/local_tts/system_lock.py:239-246 | `_sorted_tickets` is the ticket names in strictly increasing order. |
| TicketQueue.IndexOf | src/local_tts/system_lock.py:252-254 | `list.index` finds the first occurrence, and its absence is reported. |
| TicketQueue.OurPosition | src/local_tts/system_lock.py:248-256 | The position is 0 exactly when the ticket is absent; otherwise it is one more than the number of tickets before it. The total is the ticket count. |
| TicketQueue.Poll | src/local_tts/system_lock.py:318-330 | After cleanup, a round proceeds exactly when our ticket leads or the queue is empty. It times out exactly when it does not lead and the wait is over the limit. |
| TicketQueue.LeadsIsFirst | src/local_tts/system_lock.py:320-323 | Leading the queue is the same as being first of the sorted tickets. |
| TicketQueue.WaitForTurn | src/local_tts/system_lock.py:318-346 | The wait loop stops at the first round that does not say wait, and every earlier round said wait. |
| TicketQueue.InferenceLock | src/local_tts/system_lock.py:296-367 | The lock is released exactly when it was acquired, only on a round that proceeds. A timeout happens only on a round that times out. On every way out our ticket is removed and nothing else. |
| Json.Get | src/local_tts/service.py:96-99 | `dict.get` gives the value at the key, else the default. |
| Json.OfOptional | src/local_tts/client.py:104-110 | `None` is sent as JSON null and a string as itself. |
| Framing.Utf8Append | src/local_tts/client.py:74 | UTF-8 encoding distributes over concatenation. |
| Framing.HeadLines | src/local_tts/client.py:76-82 | The request head is the request line, `Host`, `Content-Type` and `Content-Length`. |
| Framing.BuildRequest | src/local_tts/client.py:76-82 | The request ends with exactly the body. |
| Framing.ContentLengthMatches | src/local_tts/client.py:80 | The `Content-Length` header holds the decimal byte length of the body. |
| Framing.FindDelim | src/local_tts/client.py:95-98 | `find(b"\r\n\r\n")` gives the first blank line, or -1 exactly when there is none. |
| Framing.SplitBody | src/local_tts/client.py:95-98 | The body is what follows the first blank line. No blank line is `ValueError("Invalid response from service")`. |
| Framing.SplitRoundTrip | src/local_tts/client.py:95-98 | A head without a blank line and not ending in CRLF, a blank line and a body split back into that body. |
| Framing.SplitRoundTripNeedsNoTrailingCRLF | src/local_tts/client.py:95-98 | A head ending in CRLF does not split back. |
| Framing.RequestRoundTrip | src/local_tts/client.py:74-82 | Splitting the request `_send_request` builds gives back its body. |
| Framing.HeadLinesProper | src/local_tts/client.py:76-82 | Each head line is non-empty and holds no line break. |
| Framing.HeaderLinesRoundTrip | src/local_tts/client.py:76-98 | Any CRLF-joined non-empty lines, a blank line and a body split back into the body. |
| Client.IsServiceRunning | src/local_tts/client.py:31-39 | No socket file, a refused connection or a missing file mean not running. Any other OS error propagates. |
| Client.RequestBody | src/local_tts/client.py:74 | An absent or empty dict sends no body; otherwise the body is the encoded dict. |
| Client.RequestCarriesBody | src/local_tts/client.py:74-82 | The server side gets exactly the body back from the request. |
| Client.SendRequest | src/local_tts/client.py:69-100 | An exchange failure is passed on unchanged. A reply without a blank line is the invalid-response error. Otherwise the result is `json.loads` of exactly the bytes after the first blank line. |
| Client.SpeakPayload | src/local_tts/client.py:102-112 | The payload has exactly the keys `text`, `voice_path` and `voice_name`, holding what was passed. |
| Client.GetStatus | src/local_tts/client.py:114-118 | Any failure gives `{"status": "stopped"}`; otherwise the reply. |
| Client.Shutdown | src/local_tts/client.py:120-124 | Shutdown sends a request with an empty body and ignores what happens. |
| Client.SpeakIsQueuedIffText | src/local_tts/service.py:87-116 | When the service decodes what `speak` sent, it queues the request exactly when the text is non-empty. The queued task carries the fields as sent. |
| Playback.IssueInOrder | src/local_tts/service.py:136-140 | Successive tickets are `next, next + 1, …`, and handing them out never moves the turn. |
| Playback.IssuedDistinct | src/local_tts/service.py:136-140 | Tickets handed out are distinct. |
| Playback.TurnsInOrder | src/local_tts/service.py:142-150 | After `k` finished turns, exactly ticket `current + k` may proceed. |
| Playback.PlayAudio | src/local_tts/service.py:242-256 | A playback runs only on its turn. Afterwards the next ticket may proceed and the file is gone. |
| Service.HandleGenerate | src/local_tts/service.py:87-116 | A zero length is 400 "Empty body". A body that is not JSON is 400 "Invalid JSON". An object with a falsy or missing `text` is 400 "Missing text". A body that is not UTF-8, or JSON that is not an object, is a 500. A task is queued with a fresh ticket exactly when the JSON is an object with truthy text, and only then does the state change. |
| Service.TakeTask | src/local_tts/service.py:266-274 | The worker takes the oldest task; an empty queue gives nothing. Taking a task resets the idle clock to the time of the take. |
| Service.IntakeKeepsOrder | src/local_tts/service.py:105-108 | The queued tasks carry consecutive tickets from `current` on: intake and taking keep queue order equal to ticket order. |
| Service.BeforeSep | src/local_tts/service.py:299 | `split(" (")[0]` is the longest prefix without the separator. |
| Service.BeforeSepOfLabel | src/local_tts/service.py:299 | The name is recovered from `"name (description"`. |
| Service.ResolveVoice | src/local_tts/service.py:297-301 | The voice is always a catalogue voice. A truthy non-string name raises. A name whose cleaned form is not in the catalogue falls back to `alba`. |
| Service.CatalogueNamesResolve | src/local_tts/service.py:297-301 | A catalogue name, with or without a ` (…)` label, resolves to itself. |
| Service.Load | src/local_tts/service.py:172-175 | A loaded model stays. An unloaded one becomes loaded exactly when loading succeeds. |
| Service.Unload | src/local_tts/service.py:177-185 | Unloading always leaves no model. |
| Service.LoadIdempotent | src/local_tts/service.py:172-185 | Loading again, and unloading again, change nothing. |
| Service.IdleTick | src/local_tts/service.py:266-271 | An idle poll unloads the model exactly when more than 60 s have passed since the last activity. |
| Service.TakenTaskKeepsModel | src/local_tts/service.py:266-274 | An idle poll within 60 s of taking a task keeps the model, however long ago the task was queued. |
| Service.EstimatedMb | src/local_tts/service.py:277 | The memory estimate is at least 500 MB. |
| Service.ShorterTextFeasible | src/local_tts/service.py:277-280 | When the estimate for a longer text passes the memory check, the estimate for a shorter text passes too. |
| Service.HandleTask | src/local_tts/service.py:273-342 | Audio is saved only with a loaded model and a non-blank text, and a blank text never saves or fails to save. A memory total of zero abandons the task before loading and leaves the slot alone. With a known total, loading happens exactly when it succeeds. Without a voice file, a failing prompt computation abandons the task. |
| Service.MemoryOnlyDelays | src/local_tts/service.py:277-280 | Any two memory statuses with a known total lead to the same outcome for a task, feasible or not: the check only delays. |
| Service.LoadedTaskNotAbandoned | src/local_tts/service.py:277-301 | A string task is not abandoned when a model is available, the memory total is known and the voice is usable. A usable voice is a voice file, or a name that is unset or a string whose prompt computation succeeds. |
| Worker.InitInv | src/local_tts/service.py:130-158 | The fresh service satisfies the ordering invariant. |
| Worker.StepInv | src/local_tts/service.py:242-340 | Every step of the corrected protocol preserves the invariant. |
| Worker.RunInv | src/local_tts/service.py:242-340 | Every run of the corrected protocol keeps the invariant. |
| Worker.InvExclusive | src/local_tts/service.py:242-256 | Under the invariant at most one task plays. |
| Worker.Safety | src/local_tts/service.py:242-256 | In every reachable state of the corrected protocol at most one task plays at a time. |
| Worker.Progress | src/local_tts/service.py:142-150 | While a handed-out ticket is unfinished, some worker or playback step is enabled. |
| Worker.Quiescent | src/local_tts/service.py:253-256 | Once every ticket is finished, no task is queued or waiting and no temporary file remains. |
| Worker.AsWrittenPlaysTwoAtOnce | src/local_tts/service.py:317-319 | As written, a task without audio passes the turn on while another plays, and two playbacks overlap. |
| Worker.AsWrittenOverlapDrains | src/local_tts/service.py:253-256 | After the overlap, each playback's `finally` passes the turn on whoever holds it, so both finish, the turn moves past every ticket and both files are removed. |
| Worker.AsWrittenStalls | src/local_tts/service.py:282-284 | As written, an abandoned task never finishes its turn, and later playbacks wait forever. |
| Worker.AsWrittenLeaksFile | src/local_tts/service.py:321-339 | As written, a failed save leaves its temporary file behind with every ticket finished. |
| Resources.Snapshot | src/local_tts/resource_manager.py:53-59 | The status is critical exactly when the used percentage exceeds the threshold. |
| Resources.Construct | src/local_tts/resource_manager.py:36-61 | The first construction builds the shared manager from its arguments, not monitoring, with a consistent status. Later ones return it unchanged. |
| Resources.ConstructOnce | src/local_tts/resource_manager.py:36-61 | Constructing again returns the same manager, whatever the arguments. |
| Resources.Start | src/local_tts/resource_manager.py:63-70 | After `start` the manager monitors, and nothing else changes. |
| Resources.StartIdempotent | src/local_tts/resource_manager.py:63-70 | Starting twice is starting once. |
| Resources.MonitorTick | src/local_tts/resource_manager.py:79-103 | A monitor pass keeps the status consistent with the threshold. A failed sample keeps the old status. |
| Resources.IsSafeToRun | src/local_tts/resource_manager.py:110-113 | It is safe to run exactly when usage is at most the threshold. |
| Resources.FeasibleIff | src/local_tts/resource_manager.py:128-148 | An allocation is feasible exactly when the current percentage plus its share of the total stays within the threshold. |
| Resources.FeasibleMonotone | src/local_tts/resource_manager.py:128-148 | A smaller allocation is feasible whenever a larger one is. |
| Resources.FeasibleNothing | src/local_tts/resource_manager.py:128-148 | Allocating nothing is feasible exactly when the status is not critical. |
| Resources.FeasibilityExamples | tests/test_resource_manager.py:46-56 | At 50% of 1000 MB with an 80% threshold, 100 MB fits and 400 MB does not. |
| FrontEnd.Basename | src/local_tts/server.py:42 | `os.path.basename` is the longest slash-free suffix. |
| FrontEnd.BasenameOfJoin | src/local_tts/server.py:42 | The base name of `dir/name` is `name`. |
| FrontEnd.VoiceFor | src/local_tts/server.py:34-44 | An unset or empty setting sends neither file nor name. An existing file is sent with its base name marked `" (default)"`. A missing file sends no file and the name `"random"`. |
| FrontEnd.VoiceForIsUsable | src/local_tts/server.py:34-44 | A voice file is sent exactly when the setting is non-empty and the file exists, named by its base name marked `" (default)"`. A name is sent exactly when the setting is non-empty, and without a file it is `"random"`. Without a file, the name sent resolves to the service's random pick. |
| FrontEnd.RandomResolves | src/local_tts/server.py:44 | An unset name and `"random"` both take the random catalogue pick. |
| FrontEnd.ReplyTo | src/local_tts/server.py:51-58 | The reply is the queued message exactly when the service reports `queued`. A failed exchange or non-dict reply is the communication error. Any other dict is the queuing error. |
| FrontEnd.Speak | src/local_tts/server.py:24-58 | The client is asked exactly when the text is not blank; a blank text is the empty-input error. The reply is the queued one exactly when the service answers `queued`. |
| PocketEngine.Construct | pocket_mcp_project/pocket_server/engine.py:40-72 | An initialized shared engine is returned as is. A failed load is `RuntimeError("Engine initialization failed: …")` and leaves an uninitialized engine. A successful one caches a state for every scenario. |
| PocketEngine.ConstructOnce | pocket_mcp_project/tests/test_unit.py:18-22 | Once built, every later construction returns the same engine and loads nothing. |
| PocketEngine.ConstructRetries | pocket_mcp_project/pocket_server/engine.py:46-53 | After a failed construction the next one loads afresh. |
| PocketEngine.Effective | pocket_mcp_project/pocket_server/engine.py:89-91 | The scenario used is always mapped. It equals the given one exactly when that one is mapped. |
| PocketEngine.Generate | pocket_mcp_project/pocket_server/engine.py:74-127 | Without a model it is `"Model not initialized"` and nothing changes. Otherwise it succeeds exactly when the audio does, with the effective scenario and its voice, and the failure message is wrapped. The cache only gains the effective scenario. |
| PocketEngine.UnknownScenarioIsAnswer | pocket_mcp_project/pocket_server/engine.py:89-91 | An unknown scenario behaves exactly like `answer`. |
| PocketEngine.ReadyKeepsCache | pocket_mcp_project/pocket_server/engine.py:93-98 | A fully initialized engine never changes its cache. |
| PocketEngine.CacheFilledOnce | pocket_mcp_project/pocket_server/engine.py:93-98 | A scenario's state is computed at most once. |
| PocketEngine.VoiceIdentifiesScenario | pocket_mcp_project/pocket_server/engine.py:117-123 | Two successful generations reporting the same voice used the same scenario: the voice in the reply names the scenario. |
| PocketServer.PlaybackStatus | pocket_mcp_project/pocket_server/server.py:61-65 | The status is the played message exactly when playback succeeded; otherwise the failure message. |
| PocketServer.SplitJoin | pocket_mcp_project/pocket_server/server.py:67-73 | Splitting newline-joined lines without newlines gives the lines back. |
| PocketServer.SuccessHasFiveLines | pocket_mcp_project/pocket_server/server.py:67-73 | The success reply has exactly its five lines. |
| PocketServer.ReplyTo | pocket_mcp_project/pocket_server/server.py:58-81 | A generation error is reported with the generation-error prefix. A success gives the success reply with the engine's voice, the formatted duration and the playback status. Neither is the length refusal. |
| PocketServer.GenerateSpeech | pocket_mcp_project/pocket_server/server.py:22-81 | A text over 1000 characters is refused, exactly then, and nothing changes. Otherwise the reply reports the engine's outcome. The temporary file is gone on every path out. |
| PocketServer.LimitIsInclusive | pocket_mcp_project/pocket_server/server.py:46-47 | 1000 characters are accepted and 1001 refused. |
| PocketServer.GeneratedReplyLines | pocket_mcp_project/tests/test_integration.py:23-41 | A generated reply has five lines, the last saying the file was deleted, and the file is indeed gone. |

## Left out

- The HTTP server and the sockets are parameters. `Client.Io` stands for the exchange. `start_service` and its polling for the socket are part of that parameter.
- `json.dumps` and `json.loads` are parameters. The service's decoding is the `Service.Decoded` datatype.
- Floating-point arithmetic is modelled by exact reals. This covers memory percentages, the memory estimate and times.
- Threads, the queue's blocking `get` and the condition variable are not modelled. `get_ticket` followed by `put` is one atomic step. Blocking in `wait_for_turn` is a step that is not enabled.
- `TicketQueue.InferenceLock` polls a finite sequence of rounds. A wait that outlasts them ends as `Interrupted`, and `time.sleep` is not modelled.
- The `flock` on the lock file, `atexit` and `SIGTERM` handling are not modelled. They serialize processes on top of the ticket order, which the model already orders.
- `_detect_parent_tool`, `_who_is_first`, `get_queue_status`, `get_current_holder` and all logging are left out. They only observe.
- `shutdown` of system_lock.py is `Registry.Deregister`. Its ticket removal never runs, because nothing ever assigns `_ticket_path`.
- The registry and queue directories are taken to exist. A write that raises is not modelled.
- `handle_status`, `handle_shutdown`, `shutdown_server`, `main` and `tts_system_status` are left out: they report state or stop the process.
- `prepare_voice_file` and its conversion of voice files are left out. A voice-file error leaves the voice state `None`, which the task's generation outcome parameter covers.
- `Service.HandleGenerate`: a non-numeric `Content-Length` makes `int()` raise outside the `try`. This is not modelled; the length is taken as given.
- `Service.HandleGenerate` does not model UTF-8 decoding of the body; `Service.Decoded` carries the decoded result.
- `Service.HandleTask`: the chunk-by-chunk generation, `torch.cat` and `wavfile.write` are an outcome parameter.
- Resources: the monitor thread, `stop` and `get_process_memory_info` are left out. One pass of the monitor loop is `Resources.MonitorTick`.
- PocketEngine.Construct: a load that fails after the model itself loaded leaves `self.model` set. The model resets it to no model, which the next construction does anyway.
- PocketEngine.Generate: a cached voice state that is falsy is recomputed by the source. Here states are numbers and a cached one is always used.
- PocketEngine.Generate: `get_state_for_audio_prompt` raising on a cache miss is not modelled. It would propagate uncaught to `generate_speech`.
- PocketServer.GenerateSpeech: requires the temporary path not to exist yet. That is `mkstemp`'s guarantee; a failing `mkstemp` or `os.close` is not modelled.
- PocketServer.GenerateSpeech: the `.2f` duration formatting is a parameter.
- PocketServer.GenerateSpeech: `context` is any string, wider than the tool's declared literal type.
- Chunking.SplitText: requires `max_length >= 1`. With 0 the slicing `range` raises. A negative step silently drops words. The only caller passes 200.
- Chunking.SplitText: states the bounds and the content of the chunks, not the exact greedy boundaries.
- Registry.ActiveInstances: states membership and start-time order, not multiplicity or the stability of ties.
- Registry.ActiveInstances: a record's `start_time` is always a number, so the `TypeError` that `sorted` raises on a live record with a non-numeric one is not modelled.
- TicketQueue.TicketNameOrder: requires the two creation times to differ and to fit in 20 digits. `time.time_ns()` of today fits; equal times would fall back to comparing pids.

## Findings

| source | as written | input that shows it | evidently intended | confidence | as-written member | corrected member |
|---|---|---|---|---|---|---|
| src/local_tts/service.py:317-319 | A task with no audio, or whose save fails (337-339), calls `finish_turn` at once, whoever holds the turn. | Tickets 0, 1 and 2: 0 and 1 are saved, 0 starts playing, then 2 produces no audio. Its `finish_turn` makes 1 current while 0 still plays, so 1 starts too. | A task without audio takes its turn in ticket order, silently, so that only one playback runs at a time. | high (not executed) | Worker.AsWrittenPlaysTwoAtOnce | Worker.Safety |
| src/local_tts/service.py:282-284 | A task abandoned before generation never calls `finish_turn`. This covers a model that did not load and the catch-all at 341-342. | Tickets 0 and 1: 0 is abandoned and 1 is saved. Ticket 0's turn never finishes, so 1 waits forever, and so does every later playback. | Every handed-out ticket eventually finishes its turn. | high (not executed) | Worker.AsWrittenStalls | Worker.Progress |
| src/local_tts/service.py:321-339 | When writing the wav raises after `NamedTemporaryFile` created it, the file is never removed. | One task whose `wavfile.write` raises: its ticket is finished, yet the file stays on disk. | Only files waiting to be played exist; a failed save removes its file. | medium (not executed) | Worker.AsWrittenLeaksFile | Worker.Quiescent |

=== FILE: chunking.dfy ===
/**
 The service's `split_text`: the text is normalised, cut into sentences after
 `.`, `!` or `?`, and the sentences are packed greedily into chunks of at most
 `maxLength` characters; an over-long sentence is packed word by word and an
 over-long word slice by slice.  Every chunk is non-empty, fits the limit, has
 no whitespace at either end, and together the chunks keep every non-space
 character of the input in order.
 */
module Chunking {
  import opened Text

  /** The `max_length` the worker uses (the default argument of `split_text`). */
  const DefaultMaxLength: int := 200

  predicate EndsSentence(c: char) {
    c == '.' || c == '!' || c == '?'
  }

  /** `s[i]` starts a match of the sentence separator `(?<=[.!?])\s+`. */
  predicate BreakAt(s: string, i: int) {
    0 < i < |s| && EndsSentence(s[i - 1]) && IsSpace(s[i])
  }

  /** The first position at or after `k` where the separator matches, or `|s|`. */
  function BreakIndex(s: string, k: nat): (i: nat)
    ensures i <= |s|
    ensures k <= |s| ==> k <= i
    ensures i < |s| ==> BreakAt(s, i)
    ensures forall m :: k <= m < i && m < |s| ==> !BreakAt(s, m)
    decreases |s| - k
  {
    if k >= |s| then |s|
    else if BreakAt(s, k) then k
    else BreakIndex(s, k + 1)
  }

  /** The end of the whitespace run that starts at `i` (the greedy `\s+`). */
  function SpaceRunEnd(s: string, i: nat): (j: nat)
    requires i <= |s|
    ensures i <= j <= |s|
    ensures forall m :: i <= m < j ==> IsSpace(s[m])
    ensures j == |s| || !IsSpace(s[j])
    decreases |s| - i
  {
    if i < |s| && IsSpace(s[i]) then SpaceRunEnd(s, i + 1) else i
  }

  lemma {:induction false} SplitThree(s: string, i: nat, j: nat)
    requires i <= j <= |s|
    ensures NonSpace(s) == NonSpace(s[..i]) + NonSpace(s[i..j]) + NonSpace(s[j..])
  {
    var a, b, c := s[..i], s[i..j], s[j..];
    assert s[..j] == a + b;
    assert s == s[..j] + c;
    NonSpaceAppend(s[..j], c);
    NonSpaceAppend(a, b);
  }

  lemma {:induction false} SpacesOnly(s: string, i: nat, j: nat)
    requires i <= j <= |s|
    requires forall m :: i <= m < j ==> IsSpace(s[m])
    ensures NonSpace(s[i..j]) == []
  {
    forall k | 0 <= k < j - i ensures IsSpace(s[i..j][k]) {
      assert s[i..j][k] == s[i + k];
    }
    NonSpaceOfSpaces(s[i..j]);
  }

  lemma {:induction false} SpacesBetween(s: string, i: nat, j: nat)
    requires i <= j <= |s|
    requires forall m :: i <= m < j ==> IsSpace(s[m])
    ensures NonSpace(s) == NonSpace(s[..i]) + NonSpace(s[j..])
  {
    SplitThree(s, i, j);
    SpacesOnly(s, i, j);
    assert NonSpace(s[..i]) + NonSpace(s[i..j]) == NonSpace(s[..i]);
  }

  /** `re.split(r'(?<=[.!?])\s+', s)`: the sentences of `s`, separators dropped. */
  function SplitSentences(s: string): (r: seq<string>)
    ensures |r| >= 1
    ensures NonSpace(Concat(r)) == NonSpace(s)
    decreases |s|
  {
    var i := BreakIndex(s, 1);
    if i >= |s| then
      assert [s][1..] == [];
      assert Concat([s]) == s + Concat([s][1..]) == s;
      [s]
    else
      var j := SpaceRunEnd(s, i);
      var rest := SplitSentences(s[j..]);
      SpacesBetween(s, i, j);
      assert Concat([s[..i]] + rest) == s[..i] + Concat(rest);
      NonSpaceAppend(s[..i], Concat(rest));
      [s[..i]] + rest
  }

  /** The part of a normalised text before one of its spaces is normalised. */
  lemma {:induction false} NormalPrefix(s: string, i: nat)
    requires Normal(s) && i < |s| && IsSpace(s[i])
    ensures Normal(s[..i])
  {
    var p := s[..i];
    forall k | 0 <= k < |p| && IsSpace(p[k])
      ensures p[k] == ' ' && 0 < k < |p| - 1 && !IsSpace(p[k + 1]) && !IsSpace(p[k - 1])
    {
      assert p[k] == s[k];
      assert p[k - 1] == s[k - 1];
      if k + 1 == i {
        assert false;
      }
      assert p[k + 1] == s[k + 1];
    }
  }

  /** Every sentence of a normalised text is itself normalised. */
  lemma {:induction false} SentencesOfNormal(s: string)
    requires Normal(s)
    ensures forall n :: 0 <= n < |SplitSentences(s)| ==> Normal(SplitSentences(s)[n])
    decreases |s|
  {
    var r := SplitSentences(s);
    var i := BreakIndex(s, 1);
    if i < |s| {
      var j := SpaceRunEnd(s, i);
      assert BreakAt(s, i);
      assert i + 1 < |s| && !IsSpace(s[i + 1]);
      assert j == i + 1;
      NormalPrefix(s, i);
      NormalTail(s, i);
      SentencesOfNormal(s[j..]);
      assert r == [s[..i]] + SplitSentences(s[j..]);
      forall n | 0 <= n < |r| ensures Normal(r[n]) {
        if n > 0 {
          assert r[n] == SplitSentences(s[j..])[n - 1];
        }
      }
    }
  }

  // ---------------------------------------------------------------- packing

  /** A finished chunk: non-empty, at most `maxLength` long, no whitespace at either end. */
  predicate IsChunk(c: string, maxLength: int) {
    0 < |c| <= maxLength && !IsSpace(c[0]) && !IsSpace(c[|c| - 1])
  }

  predicate AllChunks(cs: seq<string>, maxLength: int) {
    forall k :: 0 <= k < |cs| ==> IsChunk(cs[k], maxLength)
  }

  /**
   A chunk under construction (`current_chunk` / `temp_chunk`): empty, or some
   non-space content followed by the space the code appends after every piece,
   at most one character over the limit.
   */
  predicate Pending(buf: string, maxLength: int) {
    buf == [] || (|buf| <= maxLength + 1 && buf[|buf| - 1] == ' ' && NonSpace(buf) != [])
  }

  /** The non-space content produced so far: the finished chunks, then the buffer. */
  function Emitted(chunks: seq<string>, buf: string): string {
    NonSpace(Concat(chunks)) + NonSpace(buf)
  }

  lemma {:induction false} AppendChunk(chunks: seq<string>, c: string)
    ensures NonSpace(Concat(chunks + [c])) == NonSpace(Concat(chunks)) + NonSpace(c)
  {
    ConcatSnoc(chunks, c);
    NonSpaceAppend(Concat(chunks), c);
  }

  /** A non-empty pending buffer, stripped, is a finished chunk with the same content. */
  lemma {:induction false} StripPending(buf: string, maxLength: int)
    requires Pending(buf, maxLength) && buf != []
    ensures IsChunk(Strip(buf), maxLength)
    ensures NonSpace(Strip(buf)) == NonSpace(buf)
  {
    assert IsSpace(buf[|buf| - 1]);
  }

  lemma {:induction false} AllChunksSnoc(chunks: seq<string>, c: string, maxLength: int)
    requires AllChunks(chunks, maxLength) && IsChunk(c, maxLength)
    ensures AllChunks(chunks + [c], maxLength)
  {
    forall k | 0 <= k < |chunks + [c]| ensures IsChunk((chunks + [c])[k], maxLength) {
      if k < |chunks| {
        assert (chunks + [c])[k] == chunks[k];
      }
    }
  }

  /** `chunks.append(buf.strip())` when the buffer is non-empty. */
  function Flush(chunks: seq<string>, buf: string, maxLength: int): (r: seq<string>)
    requires AllChunks(chunks, maxLength) && Pending(buf, maxLength)
    ensures AllChunks(r, maxLength) && chunks <= r
    ensures NonSpace(Concat(r)) == Emitted(chunks, buf)
  {
    if buf == [] then
      assert NonSpace(buf) == [];
      chunks
    else
      var c := Strip(buf);
      StripPending(buf, maxLength);
      AllChunksSnoc(chunks, c, maxLength);
      AppendChunk(chunks, c);
      chunks + [c]
  }

  /** Appending a piece and the separating space to the buffer. */
  lemma {:induction false} Extend(buf: string, piece: string)
    ensures NonSpace(buf + piece + " ") == NonSpace(buf) + NonSpace(piece)
    ensures (buf + piece + " ")[|buf + piece + " "| - 1] == ' '
  {
    NonSpaceAppend(buf + piece, " ");
    NonSpaceAppend(buf, piece);
    assert NonSpace(" ") == [] by {
      assert " "[1..] == [];
    }
  }

  /** `buf += piece + " "`: the piece joins the chunk under construction. */
  lemma {:induction false} AppendPiece(chunks: seq<string>, buf: string, piece: string, maxLength: int)
    requires Pending(buf, maxLength)
    requires |buf| + |piece| + 1 <= maxLength && NonSpace(piece) != []
    ensures Pending(buf + piece + " ", maxLength)
    ensures Emitted(chunks, buf + piece + " ") == Emitted(chunks, buf) + NonSpace(piece)
  {
    Extend(buf, piece);
  }

  /** The buffer is flushed and restarted with `piece + " "`. */
  lemma {:induction false} RestartWith(chunks: seq<string>, buf: string, piece: string, maxLength: int)
    requires AllChunks(chunks, maxLength) && Pending(buf, maxLength)
    requires |piece| <= maxLength && NonSpace(piece) != []
    ensures Pending(piece + " ", maxLength)
    ensures Emitted(Flush(chunks, buf, maxLength), piece + " ") == Emitted(chunks, buf) + NonSpace(piece)
  {
    Extend([], piece);
    assert [] + piece + " " == piece + " ";
  }

  /**
   The step the code repeats for sentences, words and word slices: append the
   piece and a space to the buffer when that fits, otherwise flush the buffer
   and restart it with the piece.
   */
  function Push(chunks: seq<string>, buf: string, piece: string, maxLength: int): (r: (seq<string>, string))
    requires AllChunks(chunks, maxLength) && Pending(buf, maxLength)
    requires |piece| <= maxLength && NonSpace(piece) != []
    ensures AllChunks(r.0, maxLength) && Pending(r.1, maxLength) && chunks <= r.0
    ensures Emitted(r.0, r.1) == Emitted(chunks, buf) + NonSpace(piece)
  {
    if |buf| + |piece| + 1 <= maxLength then
      AppendPiece(chunks, buf, piece, maxLength);
      (chunks, buf + piece + " ")
    else
      RestartWith(chunks, buf, piece, maxLength);
      (Flush(chunks, buf, maxLength), piece + " ")
  }

  function Min(a: int, b: int): int {
    if a <= b then a else b
  }

  /** A slice taken right after a prefix extends that prefix. */
  lemma {:induction false} SliceAppend(e0: string, word: string, i: nat, e: nat)
    requires i <= e <= |word|
    ensures e0 + word[..i] + word[i..e] == e0 + word[..e]
  {
    assert word[..i] + word[i..e] == word[..e];
  }

  /** A slice of a whitespace-free word is whitespace-free and non-empty when it is long. */
  lemma {:induction false} SliceContent(word: string, i: nat, e: nat)
    requires NoSpace(word) && i < e <= |word|
    ensures NonSpace(word[i..e]) == word[i..e] != []
  {
    var sub := word[i..e];
    forall k | 0 <= k < |sub| ensures !IsSpace(sub[k]) {
      assert sub[k] == word[i + k];
    }
    NonSpaceOfNoSpace(sub);
  }

  /** `for i in range(0, len(word), max_length)`: an over-long word pushed slice by slice. */
  method PackSlices(chunks0: seq<string>, buf0: string, word: string, maxLength: int)
    returns (chunks: seq<string>, buf: string)
    requires maxLength >= 1
    requires AllChunks(chunks0, maxLength) && Pending(buf0, maxLength)
    requires NoSpace(word)
    ensures AllChunks(chunks, maxLength) && Pending(buf, maxLength) && chunks0 <= chunks
    ensures Emitted(chunks, buf) == Emitted(chunks0, buf0) + word
  {
    chunks, buf := chunks0, buf0;
    ghost var e0 := Emitted(chunks0, buf0);
    var i := 0;
    while i < |word|
      invariant 0 <= i <= |word|
      invariant AllChunks(chunks, maxLength) && Pending(buf, maxLength) && chunks0 <= chunks
      invariant Emitted(chunks, buf) == e0 + word[..i]
      decreases |word| - i
    {
      var e := Min(i + maxLength, |word|);
      var sub := word[i..e];
      SliceContent(word, i, e);
      var p := Push(chunks, buf, sub, maxLength);
      SliceAppend(e0, word, i, e);
      chunks, buf := p.0, p.1;
      i := e;
    }
    assert word[..i] == word;
  }

  /** Concatenating one more element of a sequence of words. */
  lemma {:induction false} ConcatPrefixStep(e0: string, words: seq<string>, w: nat)
    requires w < |words|
    ensures e0 + Concat(words[..w]) + words[w] == e0 + Concat(words[..w + 1])
  {
    assert words[..w + 1] == words[..w] + [words[w]];
    ConcatSnoc(words[..w], words[w]);
  }

  /** The words of a sentence, each pushed (or sliced when longer than the limit). */
  method PackWordList(chunks0: seq<string>, words: seq<string>, maxLength: int)
    returns (chunks: seq<string>, buf: string)
    requires maxLength >= 1
    requires AllChunks(chunks0, maxLength)
    requires forall k :: 0 <= k < |words| ==> words[k] != [] && NoSpace(words[k])
    ensures AllChunks(chunks, maxLength) && Pending(buf, maxLength) && chunks0 <= chunks
    ensures Emitted(chunks, buf) == NonSpace(Concat(chunks0)) + Concat(words)
  {
    chunks, buf := chunks0, "";
    ghost var e0 := NonSpace(Concat(chunks0));
    assert NonSpace(buf) == [];
    assert Emitted(chunks, buf) == e0 + Concat(words[..0]);
    for w := 0 to |words|
      invariant AllChunks(chunks, maxLength) && Pending(buf, maxLength) && chunks0 <= chunks
      invariant Emitted(chunks, buf) == e0 + Concat(words[..w])
    {
      var word := words[w];
      ConcatPrefixStep(e0, words, w);
      if |word| > maxLength {
        chunks, buf := PackSlices(chunks, buf, word, maxLength);
      } else {
        NonSpaceOfNoSpace(word);
        var p := Push(chunks, buf, word, maxLength);
        chunks, buf := p.0, p.1;
      }
    }
    assert words[..|words|] == words;
  }

  /** An over-long sentence packed word by word, starting from an empty buffer. */
  method PackWords(chunks0: seq<string>, sentence: string, maxLength: int)
    returns (chunks: seq<string>, buf: string)
    requires maxLength >= 1
    requires AllChunks(chunks0, maxLength)
    requires Normal(sentence) && sentence != []
    ensures AllChunks(chunks, maxLength) && Pending(buf, maxLength) && chunks0 <= chunks
    ensures Emitted(chunks, buf) == NonSpace(Concat(chunks0)) + NonSpace(sentence)
  {
    SplitOnSpaceOfNormal(sentence);
    chunks, buf := PackWordList(chunks0, SplitOnSpace(sentence), maxLength);
  }

  lemma {:induction false} NonEmptyChunks(chunks: seq<string>, maxLength: int)
    requires AllChunks(chunks, maxLength) && chunks != []
    ensures NonSpace(Concat(chunks)) != []
  {
    var c := chunks[0];
    assert IsChunk(c, maxLength);
    assert Concat(chunks) == c + Concat(chunks[1..]);
    NonSpaceAppend(c, Concat(chunks[1..]));
    assert NonSpace(c) == [c[0]] + NonSpace(c[1..]);
  }

  /** The content of the first `n + 1` pieces is that of the first `n`, then the next. */
  lemma {:induction false} PrefixContent(pieces: seq<string>, n: nat)
    requires n < |pieces|
    ensures NonSpace(Concat(pieces[..n + 1])) == NonSpace(Concat(pieces[..n])) + NonSpace(pieces[n])
  {
    assert pieces[..n + 1] == pieces[..n] + [pieces[n]];
    AppendChunk(pieces[..n], pieces[n]);
  }

  /**
   One iteration of the sentence loop of `split_text`.  A sentence that fits
   the limit takes the same path as a word (`Push`); a longer one can never be
   appended to the current chunk, so the chunk is flushed and the sentence is
   packed word by word.
   */
  method AddSentence(chunks0: seq<string>, current0: string, sentence: string, maxLength: int)
    returns (chunks: seq<string>, current: string)
    requires maxLength >= 1
    requires AllChunks(chunks0, maxLength) && Pending(current0, maxLength)
    requires Normal(sentence)
    ensures AllChunks(chunks, maxLength) && Pending(current, maxLength) && chunks0 <= chunks
    ensures Emitted(chunks, current) == Emitted(chunks0, current0) + NonSpace(sentence)
  {
    ghost var e0 := Emitted(chunks0, current0);
    if Strip(sentence) == [] {
      chunks, current := chunks0, current0;
      assert e0 + NonSpace(sentence) == e0 + [] == e0;
    } else if |sentence| <= maxLength {
      var p := Push(chunks0, current0, sentence, maxLength);
      chunks, current := p.0, p.1;
    } else {
      var flushed := Flush(chunks0, current0, maxLength);
      assert NonSpace(Concat(flushed)) == e0;
      chunks, current := PackWords(flushed, sentence, maxLength);
    }
  }

  /** The sentence loop of `split_text`, before the last chunk is flushed. */
  method PackSentences(sentences: seq<string>, maxLength: int) returns (chunks: seq<string>, current: string)
    requires maxLength >= 1
    requires forall n :: 0 <= n < |sentences| ==> Normal(sentences[n])
    ensures AllChunks(chunks, maxLength) && Pending(current, maxLength)
    ensures Emitted(chunks, current) == NonSpace(Concat(sentences))
  {
    chunks, current := [], "";
    for n := 0 to |sentences|
      invariant AllChunks(chunks, maxLength) && Pending(current, maxLength)
      invariant Emitted(chunks, current) == NonSpace(Concat(sentences[..n]))
    {
      PrefixContent(sentences, n);
      chunks, current := AddSentence(chunks, current, sentences[n], maxLength);
    }
    assert sentences[..|sentences|] == sentences;
  }

  /**
   `split_text(text, max_length)`.  Every chunk is non-empty, at most
   `maxLength` long and trimmed; the chunks keep every non-space character of
   the text, in order; and there are no chunks exactly when the text is blank.
   */
  method SplitText(text: string, maxLength: int) returns (chunks: seq<string>)
    requires maxLength >= 1
    ensures AllChunks(chunks, maxLength)
    ensures NonSpace(Concat(chunks)) == NonSpace(text)
    ensures chunks == [] <==> NonSpace(text) == []
  {
    if text == [] {
      return [];
    }
    var normal := Normalize(text);
    var sentences := SplitSentences(normal);
    SentencesOfNormal(normal);
    var current;
    chunks, current := PackSentences(sentences, maxLength);
    chunks := Flush(chunks, current, maxLength);
    if chunks != [] {
      NonEmptyChunks(chunks, maxLength);
    }
  }
}

=== FILE: client.dfy ===
/**
 The lightweight client of client.py: the socket probe, `_send_request`
 over the framing, the `speak` payload and the error swallowing of
 `get_status` and `shutdown`.  JSON encoding and decoding and the socket
 exchange (including starting the service when it is down) are parameters.
 */
module Client {
  import opened Wrappers
  import opened Json
  import opened Framing
  import Service

  /** What connecting to the socket does. */
  datatype Connect = Connected | Refused | NoSuchFile | OtherOSError

  /**
   `is_service_running`: no socket file means not running; otherwise a
   connection that is refused or finds no file means not running, and any
   other OS error propagates.
   */
  function IsServiceRunning(socketExists: bool, connect: Connect): (r: Result<bool, Connect>)
    ensures !socketExists ==> r == Ok(false)
    ensures r == Ok(true) <==> socketExists && connect.Connected?
    ensures r.Err? <==> socketExists && connect.OtherOSError?
  {
    if !socketExists then Ok(false)
    else
      match connect
      case Connected => Ok(true)
      case Refused => Ok(false)
      case NoSuchFile => Ok(false)
      case OtherOSError => Err(connect)
  }

  /**
   The environment of a request: `json.dumps(...).encode('utf-8')`, the
   exchange over the socket (sending the request, reading to end of stream;
   an `Err` for any exception, starting the service included) and
   `json.loads`.
   */
  datatype Io = Io(
    dumps: Json -> seq<byte>,
    exchange: seq<byte> -> Result<seq<byte>, string>,
    loads: seq<byte> -> Result<Json, string>)

  /** The body `_send_request` sends: the encoded data when there is a non-empty dict, else nothing. */
  function RequestBody(data: Option<map<string, Json>>, dumps: Json -> seq<byte>): (r: seq<byte>)
    ensures data.None? || data.value == map[] ==> r == []
    ensures data.Some? && data.value != map[] ==> r == dumps(Obj(data.value))
  {
    if data.Some? && Truthy(Obj(data.value)) then dumps(Obj(data.value)) else []
  }

  /** The bytes `_send_request` writes to the socket. */
  function RequestBytes(verb: string, endpoint: string, data: Option<map<string, Json>>,
                        dumps: Json -> seq<byte>): (r: seq<byte>)
  {
    BuildRequest(verb, endpoint, RequestBody(data, dumps))
  }

  /** Whoever splits the request at its blank line gets exactly the body back. */
  lemma RequestCarriesBody(verb: string, endpoint: string, data: Option<map<string, Json>>,
                           dumps: Json -> seq<byte>)
    requires NoBreak(verb) && NoBreak(endpoint)
    ensures SplitBody(RequestBytes(verb, endpoint, data, dumps)) == Ok(RequestBody(data, dumps))
  {
    RequestRoundTrip(verb, endpoint, RequestBody(data, dumps));
  }

  /**
   `_send_request`: exchange the request, split the response at its first
   blank line (none is `ValueError("Invalid response from service")`) and
   decode what follows.
   */
  function SendRequest(verb: string, endpoint: string, data: Option<map<string, Json>>, io: Io)
    : (r: Result<Json, string>)
    ensures io.exchange(RequestBytes(verb, endpoint, data, io.dumps)).Err? ==> r.Err?
    ensures var reply := io.exchange(RequestBytes(verb, endpoint, data, io.dumps));
      reply.Ok? && (forall i :: !DelimAt(reply.value, i)) ==> r == Err(InvalidResponse)
    ensures r.Ok? ==> exists b :: SplitBody(io.exchange(RequestBytes(verb, endpoint, data, io.dumps)).value) == Ok(b)
                                  && io.loads(b) == r
    ensures var reply := io.exchange(RequestBytes(verb, endpoint, data, io.dumps));
      reply.Err? ==> r == Err(reply.error)
    ensures var reply := io.exchange(RequestBytes(verb, endpoint, data, io.dumps));
      reply.Ok? && SplitBody(reply.value).Ok? ==> r == io.loads(SplitBody(reply.value).value)
  {
    match io.exchange(RequestBytes(verb, endpoint, data, io.dumps))
    case Err(e) => Err(e)
    case Ok(response) =>
      match SplitBody(response)
      case Err(e) => Err(e)
      case Ok(body) => io.loads(body)
  }

  /** The JSON object `speak` sends: exactly the keys text, voice_path and voice_name. */
  function SpeakPayload(text: string, voicePath: Option<string>, voiceName: Option<string>)
    : (r: map<string, Json>)
    ensures r.Keys == {"text", "voice_path", "voice_name"}
    ensures r["text"] == Str(text)
    ensures r["voice_path"] == OfOptional(voicePath) && r["voice_name"] == OfOptional(voiceName)
  {
    map["text" := Str(text), "voice_path" := OfOptional(voicePath), "voice_name" := OfOptional(voiceName)]
  }

  /** `speak`: `POST /generate` with the payload. */
  function Speak(text: string, voicePath: Option<string>, voiceName: Option<string>, io: Io)
    : (r: Result<Json, string>)
  {
    SendRequest("POST", "/generate", Some(SpeakPayload(text, voicePath, voiceName)), io)
  }

  /** What `get_status` returns when the service cannot be asked. */
  const Stopped: Json := Obj(map["status" := Str("stopped")])

  /** `get_status`: the service's reply, or `{"status": "stopped"}` on any failure. */
  function GetStatus(io: Io): (r: Json)
    ensures SendRequest("POST", "/status", None, io).Err? ==> r == Stopped
    ensures SendRequest("POST", "/status", None, io).Ok? ==> r == SendRequest("POST", "/status", None, io).value
  {
    match SendRequest("POST", "/status", None, io)
    case Ok(reply) => reply
    case Err(_) => Stopped
  }

  /**
   `shutdown`: sends `POST /shutdown` and ignores whatever happens; the
   result is the request it sends, which has an empty body.
   */
  function Shutdown(io: Io): (sent: seq<byte>)
    ensures SplitBody(sent) == Ok([])
  {
    RequestCarriesBody("POST", "/shutdown", None, io.dumps);
    RequestBytes("POST", "/shutdown", None, io.dumps)
  }

  /**
   End to end: when the service decodes what `speak` encoded, the request
   is queued exactly when the text is non-empty, and the queued task
   carries the text and the voice fields as sent (a missing voice name
   arrives as JSON `null`, not as the `"random"` default).
   */
  lemma SpeakIsQueuedIffText(text: string, voicePath: Option<string>, voiceName: Option<string>,
                             io: Io, st: Service.Intake, now: real)
    requires var body := RequestBody(Some(SpeakPayload(text, voicePath, voiceName)), io.dumps);
      |body| > 0
    ensures
      var p := SpeakPayload(text, voicePath, voiceName);
      var body := RequestBody(Some(p), io.dumps);
      var (reply, st') := Service.HandleGenerate(st, |body|, Service.Decoded(Obj(p)), now);
      (reply.Sent? <==> text != []) &&
      (reply.Sent? ==>
         st'.tasks[|st'.tasks| - 1] ==
           Service.Task(Str(text), OfOptional(voicePath), OfOptional(voiceName), st.coord.next))
  {
  }
}

=== FILE: decimal.dfy ===
/**
 Decimal text of natural numbers: `str(n)` and the zero-padded `f"{n:020d}"`
 used in ticket names, with their reading back and the fact that, at a fixed
 width, comparing the texts as strings compares the numbers.
 */
module Decimal {
  import opened Lex

  predicate IsDigit(c: char) {
    '0' <= c <= '9'
  }

  predicate AllDigits(s: string) {
    forall i :: 0 <= i < |s| ==> IsDigit(s[i])
  }

  function DigitChar(d: nat): (c: char)
    requires d < 10
    ensures IsDigit(c)
  {
    ('0' as int + d) as char
  }

  function DigitValue(c: char): (d: nat)
    requires IsDigit(c)
    ensures d < 10 && DigitChar(d) == c
  {
    c as int - '0' as int
  }

  function Pow10(k: nat): (p: nat)
    ensures p >= 1
  {
    if k == 0 then 1 else 10 * Pow10(k - 1)
  }

  /** The number a digit string denotes (most significant digit first). */
  function Value(s: string): nat
    requires AllDigits(s)
  {
    if s == [] then 0 else Value(s[..|s| - 1]) * 10 + DigitValue(s[|s| - 1])
  }

  /** `str(n)`: digits without leading zeros, a single `0` for zero. */
  function Show(n: nat): (s: string)
    ensures 1 <= |s| && AllDigits(s)
    ensures |s| > 1 ==> s[0] != '0'
    decreases n
  {
    if n < 10 then [DigitChar(n)] else Show(n / 10) + [DigitChar(n % 10)]
  }

  lemma {:induction false} ValueOfShow(n: nat)
    ensures Value(Show(n)) == n
    decreases n
  {
    if n >= 10 {
      ValueOfShow(n / 10);
      var s := Show(n);
      assert s[..|s| - 1] == Show(n / 10);
    }
  }

  /** A digit string of length `k` denotes a number below `10^k`. */
  lemma {:induction false} ValueBound(s: string)
    requires AllDigits(s)
    ensures Value(s) < Pow10(|s|)
    decreases |s|
  {
    if s != [] {
      ValueBound(s[..|s| - 1]);
    }
  }

  /** `str(n)` has at most `k` digits exactly when `n < 10^k`. */
  lemma {:induction false} ShowLength(n: nat, k: nat)
    requires k >= 1
    ensures |Show(n)| <= k <==> n < Pow10(k)
    decreases n
  {
    if n >= 10 {
      if k == 1 {
        assert Pow10(1) == 10;
      } else {
        ShowLength(n / 10, k - 1);
      }
    }
    else {
      assert Pow10(k) >= 10 by {
        PowMonotone(1, k);
      }
    }
  }

  lemma {:induction false} PowMonotone(j: nat, k: nat)
    requires j <= k
    ensures Pow10(j) <= Pow10(k)
    decreases k
  {
    if j < k {
      PowMonotone(j, k - 1);
    }
  }

  function Zeros(k: nat): (s: string)
    ensures |s| == k && AllDigits(s)
    ensures forall i :: 0 <= i < k ==> s[i] == '0'
  {
    if k == 0 then [] else Zeros(k - 1) + ['0']
  }

  /** `f"{n:0{width}d}"`: `str(n)` left-padded with zeros to at least `width` characters. */
  function ZeroPad(n: nat, width: nat): (s: string)
    ensures AllDigits(s)
  {
    var digits := Show(n);
    if |digits| < width then Zeros(width - |digits|) + digits else digits
  }

  /** Reading a digit string from the front: the leading digit weighs `10^(length - 1)`. */
  lemma {:induction false} ValueFront(s: string)
    requires AllDigits(s) && s != []
    ensures Value(s) == DigitValue(s[0]) * Pow10(|s| - 1) + Value(s[1..])
    decreases |s|
  {
    if |s| > 1 {
      var init := s[..|s| - 1];
      ValueFront(init);
      assert init[0] == s[0];
      assert init[1..] == s[1..][..|s[1..]| - 1];
      assert s[1..][|s[1..]| - 1] == s[|s| - 1];
      calc {
        Value(s);
        Value(init) * 10 + DigitValue(s[|s| - 1]);
        (DigitValue(s[0]) * Pow10(|s| - 2) + Value(init[1..])) * 10 + DigitValue(s[|s| - 1]);
        { ShiftDigit(DigitValue(s[0]), Pow10(|s| - 2), Value(init[1..]), DigitValue(s[|s| - 1])); }
        DigitValue(s[0]) * (Pow10(|s| - 2) * 10) + (Value(init[1..]) * 10 + DigitValue(s[|s| - 1]));
        DigitValue(s[0]) * Pow10(|s| - 1) + (Value(init[1..]) * 10 + DigitValue(s[|s| - 1]));
        DigitValue(s[0]) * Pow10(|s| - 1) + Value(s[1..]);
      }
    } else {
      assert s[..0] == [] && s[1..] == [];
    }
  }

  /** Appending a digit multiplies the leading term by ten. */
  lemma ShiftDigit(d: int, p: int, v: int, e: int)
    ensures (d * p + v) * 10 + e == d * (p * 10) + (v * 10 + e)
  {
  }

  lemma {:induction false} ZerosValue(k: nat, digits: string)
    requires AllDigits(digits)
    ensures Value(Zeros(k) + digits) == Value(digits)
    decreases k
  {
    if k > 0 {
      var s := Zeros(k) + digits;
      ValueFront(s);
      assert s[1..] == Zeros(k - 1) + digits by {
        assert Zeros(k) == ['0'] + Zeros(k - 1) by {
          ZerosCons(k);
        }
      }
      ZerosValue(k - 1, digits);
      assert s[0] == '0' && DigitValue(s[0]) == 0;
      assert Value(s) == 0 * Pow10(|s| - 1) + Value(s[1..]);
    } else {
      assert Zeros(k) + digits == digits;
    }
  }

  lemma {:induction false} ZerosCons(k: nat)
    requires k > 0
    ensures Zeros(k) == ['0'] + Zeros(k - 1)
    decreases k
  {
    if k > 1 {
      ZerosCons(k - 1);
    }
  }

  /** The padded text has exactly `width` characters when the number fits, and reads back as `n`. */
  lemma ZeroPadFacts(n: nat, width: nat)
    requires width >= 1 && n < Pow10(width)
    ensures |ZeroPad(n, width)| == width
    ensures Value(ZeroPad(n, width)) == n
  {
    ShowLength(n, width);
    ValueOfShow(n);
    ZerosValue(width - |Show(n)|, Show(n));
  }

  /** For digit strings of one length, string order is numeric order. */
  lemma {:induction false} DigitOrder(a: string, b: string)
    requires AllDigits(a) && AllDigits(b) && |a| == |b|
    ensures Less(a, b) <==> Value(a) < Value(b)
    decreases |a|
  {
    if a != [] {
      ValueFront(a);
      ValueFront(b);
      ValueBound(a[1..]);
      ValueBound(b[1..]);
      var p := Pow10(|a| - 1);
      var da, db := DigitValue(a[0]), DigitValue(b[0]);
      if a[0] == b[0] {
        DigitOrder(a[1..], b[1..]);
      } else if da < db {
        Dominates(da, db, p, Value(a[1..]), Value(b[1..]));
      } else {
        Dominates(db, da, p, Value(b[1..]), Value(a[1..]));
      }
    }
  }

  /** A smaller leading digit outweighs whatever follows it. */
  lemma Dominates(x: nat, y: nat, p: nat, rx: nat, ry: nat)
    requires x < y && rx < p
    ensures x * p + rx < y * p + ry
  {
    MulMono(x + 1, y, p);
  }

  lemma {:induction false} MulMono(x: nat, y: nat, p: nat)
    requires x <= y
    ensures x * p <= y * p
    decreases y - x
  {
    if x < y {
      MulMono(x + 1, y, p);
    }
  }

  /** Zero-padded to a common width that both fit, string order is numeric order. */
  lemma PadOrder(n: nat, m: nat, width: nat)
    requires width >= 1 && n < Pow10(width) && m < Pow10(width)
    ensures Less(ZeroPad(n, width), ZeroPad(m, width)) <==> n < m
  {
    ZeroPadFacts(n, width);
    ZeroPadFacts(m, width);
    DigitOrder(ZeroPad(n, width), ZeroPad(m, width));
  }
}

=== FILE: framing.dfy ===
/**
 The hand-rolled HTTP/1.1 framing of the client (client.py, `_send_request`):
 the request is a header block ending in a blank line followed by the body
 bytes, and a response is split at its first `\r\n\r\n`.
 */
module Framing {
  import opened Wrappers
  import opened Decimal

  type byte = x: int | 0 <= x < 256

  const CR: byte := 13
  const LF: byte := 10

  /** The blank line that ends a header block. */
  const Delim: seq<byte> := [CR, LF, CR, LF]

  const InvalidResponse: string := "Invalid response from service"

  /** The UTF-8 encoding of one character (a Unicode scalar value). */
  function EncodeChar(c: char): (r: seq<byte>)
    ensures 1 <= |r| <= 4
    ensures |r| == 1 <==> c as int < 0x80
    ensures |r| == 1 ==> r[0] == c as int
    ensures |r| > 1 ==> forall i :: 0 <= i < |r| ==> r[i] >= 0x80
  {
    var n := c as int;
    if n < 0x80 then [n]
    else if n < 0x800 then [0xC0 + n / 0x40, 0x80 + n % 0x40]
    else if n < 0x1_0000 then [0xE0 + n / 0x1000, 0x80 + (n / 0x40) % 0x40, 0x80 + n % 0x40]
    else [0xF0 + n / 0x4_0000, 0x80 + (n / 0x1000) % 0x40, 0x80 + (n / 0x40) % 0x40, 0x80 + n % 0x40]
  }

  /** `s.encode('utf-8')`. */
  function Utf8(s: string): (r: seq<byte>)
    ensures |r| >= |s|
    decreases |s|
  {
    if s == [] then [] else EncodeChar(s[0]) + Utf8(s[1..])
  }

  lemma {:induction false} Utf8Append(a: string, b: string)
    ensures Utf8(a + b) == Utf8(a) + Utf8(b)
    decreases |a|
  {
    if a == [] {
      assert a + b == b;
    } else {
      assert (a + b)[0] == a[0] && (a + b)[1..] == a[1..] + b;
      Utf8Append(a[1..], b);
      assert Utf8(a + b) == EncodeChar(a[0]) + Utf8(a[1..] + b);
    }
  }

  /** Text without CR or LF encodes to bytes without CR or LF. */
  lemma {:induction false} Utf8NoBreak(s: string)
    requires NoBreak(s)
    ensures forall i :: 0 <= i < |Utf8(s)| ==> Utf8(s)[i] != CR && Utf8(s)[i] != LF
    decreases |s|
  {
    if s != [] {
      assert NoBreak(s[1..]) by {
        assert forall i :: 0 <= i < |s[1..]| ==> s[1..][i] == s[i + 1];
      }
      Utf8NoBreak(s[1..]);
      var e, rest := EncodeChar(s[0]), Utf8(s[1..]);
      forall i | 0 <= i < |e + rest| ensures (e + rest)[i] != CR && (e + rest)[i] != LF {
        if i >= |e| {
          assert (e + rest)[i] == rest[i - |e|];
        }
      }
    }
  }

  predicate NoBreak(s: string) {
    forall i :: 0 <= i < |s| ==> s[i] != '\r' && s[i] != '\n'
  }

  /** The request line and headers `_send_request` writes for HTTP method `verb`. */
  function HeadLines(verb: string, endpoint: string, length: nat): (r: seq<string>)
    ensures |r| == 4
  {
    [verb + " " + endpoint + " HTTP/1.1",
     "Host: localhost",
     "Content-Type: application/json",
     "Content-Length: " + Show(length)]
  }

  /** The header lines, each ended by `\r\n`, and the blank line. */
  function Head(verb: string, endpoint: string, length: nat): (h: string)
  {
    JoinText(HeadLines(verb, endpoint, length)) + "\r\n\r\n"
  }

  /** The bytes sent: the encoded header block, then exactly the body. */
  function BuildRequest(verb: string, endpoint: string, body: seq<byte>): (r: seq<byte>)
    ensures |r| >= |Head(verb, endpoint, |body|)| + |body|
    ensures r[|r| - |body|..] == body
  {
    Utf8(Head(verb, endpoint, |body|)) + body
  }

  /** The Content-Length header carries the body's length, in digits that read back to it. */
  lemma ContentLengthMatches(verb: string, endpoint: string, body: seq<byte>)
    ensures exists digits: string ::
      AllDigits(digits) && Value(digits) == |body| &&
      HeadLines(verb, endpoint, |body|)[3] == "Content-Length: " + digits
  {
    ValueOfShow(|body|);
    assert HeadLines(verb, endpoint, |body|)[3] == "Content-Length: " + Show(|body|);
  }

  // ------------------------------------------------------------- parsing

  /** `\r\n\r\n` starts at position `i`. */
  predicate DelimAt(data: seq<byte>, i: int) {
    0 <= i && i + 4 <= |data| &&
    data[i] == CR && data[i + 1] == LF && data[i + 2] == CR && data[i + 3] == LF
  }

  /** `data.find(b"\r\n\r\n", from)` restricted to positions at or after `from`. */
  function FindDelimFrom(data: seq<byte>, from: nat): (r: int)
    ensures r == -1 || (from <= r && DelimAt(data, r))
    ensures forall i :: from <= i && (r == -1 || i < r) ==> !DelimAt(data, i)
    decreases |data| - from
  {
    if from + 4 > |data| then -1
    else if DelimAt(data, from) then from
    else FindDelimFrom(data, from + 1)
  }

  /** `response_data.find(b"\r\n\r\n")`: the first position of the blank line, or -1. */
  function FindDelim(data: seq<byte>): (r: int)
    ensures r == -1 <==> forall i :: !DelimAt(data, i)
    ensures r != -1 ==> DelimAt(data, r) && forall i :: 0 <= i < r ==> !DelimAt(data, i)
  {
    FindDelimFrom(data, 0)
  }

  /**
   The response handling of `_send_request` up to `json.loads`: no blank
   line is a `ValueError`; otherwise everything after the first one is the body.
   */
  function SplitBody(data: seq<byte>): (r: Result<seq<byte>, string>)
    ensures r.Err? <==> forall i :: !DelimAt(data, i)
    ensures r.Err? ==> r.error == InvalidResponse
    ensures r.Ok? ==> exists k :: DelimAt(data, k) && r.value == data[k + 4..] &&
                                  forall i :: 0 <= i < k ==> !DelimAt(data, i)
  {
    var k := FindDelim(data);
    if k == -1 then Err(InvalidResponse) else Ok(data[k + 4..])
  }

  predicate EndsWithCRLF(h: seq<byte>) {
    |h| >= 2 && h[|h| - 2] == CR && h[|h| - 1] == LF
  }

  /**
   Splitting `h + \r\n\r\n + b` gives back `b` when `h` holds no blank line
   and does not itself end in `\r\n` (which would put the first blank line
   two bytes early).
   */
  lemma {:induction false} SplitRoundTrip(h: seq<byte>, b: seq<byte>)
    requires forall i :: !DelimAt(h, i)
    requires !EndsWithCRLF(h)
    ensures SplitBody(h + Delim + b) == Ok(b)
  {
    var data := h + Delim + b;
    assert DelimAt(data, |h|);
    forall i | 0 <= i < |h| ensures !DelimAt(data, i) {
      if i + 4 <= |h| {
        assert !DelimAt(h, i);
        assert data[i..i + 4] == h[i..i + 4];
      } else if i == |h| - 2 {
        assert !EndsWithCRLF(h);
      }
    }
    assert FindDelim(data) == |h|;
    assert data[|h| + 4..] == b;
  }

  /** Without the side condition on `h` the round trip fails: `h = "x\r\n"` loses its body. */
  lemma SplitRoundTripNeedsNoTrailingCRLF()
    ensures var h: seq<byte> := [120, CR, LF];
      forall i :: !DelimAt(h, i)
    ensures var h: seq<byte> := [120, CR, LF];
      SplitBody(h + Delim + [1]) == Ok([CR, LF, 1])
  {
    var data: seq<byte> := [120, CR, LF] + Delim + [1];
    assert DelimAt(data, 1);
    assert !DelimAt(data, 0);
    assert FindDelim(data) == 1;
    assert data[5..] == [CR, LF, 1];
  }

  /**
   A request's own header block is split off exactly, leaving its body,
   whenever the method and the endpoint contain no line break.
   */
  lemma RequestRoundTrip(verb: string, endpoint: string, body: seq<byte>)
    requires NoBreak(verb) && NoBreak(endpoint)
    ensures SplitBody(BuildRequest(verb, endpoint, body)) == Ok(body)
  {
    var lines := HeadLines(verb, endpoint, |body|);
    HeadLinesProper(verb, endpoint, |body|);
    EncodeLines(lines);
    var h := JoinText(lines);
    assert Utf8(h + "\r\n\r\n") == JoinCRLF(Utf8Lines(lines)) + Delim by {
      Utf8Append(h, "\r\n\r\n");
      LineBreakBytes();
    }
    HeaderLinesRoundTrip(Utf8Lines(lines), body);
  }

  /** Every header line is non-empty and free of line breaks. */
  lemma HeadLinesProper(verb: string, endpoint: string, length: nat)
    requires NoBreak(verb) && NoBreak(endpoint)
    ensures forall k :: 0 <= k < 4 ==> HeadLines(verb, endpoint, length)[k] != [] &&
                                       NoBreak(HeadLines(verb, endpoint, length)[k])
  {
    NoBreakAppend(verb, " ");
    NoBreakAppend(verb + " ", endpoint);
    NoBreakAppend(verb + " " + endpoint, " HTTP/1.1");
    var digits := Show(length);
    assert NoBreak(digits) by {
      assert forall i :: 0 <= i < |digits| ==> IsDigit(digits[i]);
    }
    NoBreakAppend("Content-Length: ", digits);
  }

  /** `"\r\n"` and the blank line encode to their ASCII bytes. */
  lemma LineBreakBytes()
    ensures Utf8("\r\n") == [CR, LF]
    ensures Utf8("\r\n\r\n") == Delim
  {
    assert EncodeChar('\r') == [CR] && EncodeChar('\n') == [LF];
    assert Utf8("\n") == EncodeChar('\n') + Utf8([]);
    assert Utf8("\r\n") == EncodeChar('\r') + Utf8("\n");
    Utf8Append("\r\n", "\r\n");
    assert "\r\n" + "\r\n" == "\r\n\r\n";
  }

  lemma NoBreakAppend(a: string, b: string)
    requires NoBreak(a) && NoBreak(b)
    ensures NoBreak(a + b)
  {
    forall i | 0 <= i < |a + b| ensures (a + b)[i] != '\r' && (a + b)[i] != '\n' {
      if i >= |a| {
        assert (a + b)[i] == b[i - |a|];
      }
    }
  }

  // ------------------------------------------------------ header blocks

  /** A header line: some bytes, none of them CR or LF. */
  predicate IsLine(l: seq<byte>) {
    l != [] && forall i :: 0 <= i < |l| ==> l[i] != CR && l[i] != LF
  }

  /** Lines separated by `\r\n`. */
  function JoinCRLF(lines: seq<seq<byte>>): (r: seq<byte>)
    decreases |lines|
  {
    if lines == [] then []
    else if |lines| == 1 then lines[0]
    else lines[0] + [CR, LF] + JoinCRLF(lines[1..])
  }

  /** Every CR of a joined block is followed two bytes later by a line's first byte. */
  predicate CRThenLine(data: seq<byte>) {
    forall i :: 0 <= i < |data| && data[i] == CR ==> i + 2 < |data| && data[i + 2] != CR
  }

  lemma {:induction false} JoinShape(lines: seq<seq<byte>>)
    requires lines != [] && forall k :: 0 <= k < |lines| ==> IsLine(lines[k])
    ensures CRThenLine(JoinCRLF(lines))
    ensures JoinCRLF(lines) != [] && JoinCRLF(lines)[|JoinCRLF(lines)| - 1] != LF
    ensures JoinCRLF(lines)[0] != CR
    decreases |lines|
  {
    if |lines| > 1 {
      var rest := JoinCRLF(lines[1..]);
      JoinShape(lines[1..]);
      var l := lines[0];
      var data := l + [CR, LF] + rest;
      assert JoinCRLF(lines) == data;
      forall i | 0 <= i < |data| && data[i] == CR ensures i + 2 < |data| && data[i + 2] != CR {
        if i == |l| {
          assert data[i + 2] == rest[0];
        } else if i > |l| + 1 {
          assert data[i] == rest[i - |l| - 2];
          assert data[i + 2] == rest[i - |l|];
        }
      }
      assert data[|data| - 1] == rest[|rest| - 1];
      assert data[0] == l[0];
    }
  }

  /** A header block of proper lines, the blank line and a body split back into the body. */
  lemma HeaderLinesRoundTrip(lines: seq<seq<byte>>, b: seq<byte>)
    requires lines != [] && forall k :: 0 <= k < |lines| ==> IsLine(lines[k])
    ensures SplitBody(JoinCRLF(lines) + Delim + b) == Ok(b)
  {
    var h := JoinCRLF(lines);
    JoinShape(lines);
    assert forall i :: !DelimAt(h, i);
    SplitRoundTrip(h, b);
  }

  // --------------------------------------------- encoding the header text

  function Utf8Lines(lines: seq<string>): (r: seq<seq<byte>>)
    ensures |r| == |lines|
    ensures forall k :: 0 <= k < |lines| ==> r[k] == Utf8(lines[k])
  {
    if lines == [] then [] else [Utf8(lines[0])] + Utf8Lines(lines[1..])
  }

  /** Lines joined by `\r\n`. */
  function JoinText(lines: seq<string>): (r: string)
    decreases |lines|
  {
    if lines == [] then []
    else if |lines| == 1 then lines[0]
    else lines[0] + "\r\n" + JoinText(lines[1..])
  }

  /** Encoding joined text lines joins their encodings; text lines without breaks encode to header lines. */
  lemma {:induction false} EncodeLines(lines: seq<string>)
    requires forall k :: 0 <= k < |lines| ==> lines[k] != [] && NoBreak(lines[k])
    ensures Utf8(JoinText(lines)) == JoinCRLF(Utf8Lines(lines))
    ensures forall k :: 0 <= k < |lines| ==> IsLine(Utf8Lines(lines)[k])
    decreases |lines|
  {
    if lines != [] {
      Utf8NoBreak(lines[0]);
      assert Utf8(lines[0]) != [];
      EncodeLines(lines[1..]);
      assert Utf8Lines(lines)[1..] == Utf8Lines(lines[1..]);
      if |lines| > 1 {
        var rest := JoinText(lines[1..]);
        Utf8Append(lines[0], "\r\n");
        Utf8Append(lines[0] + "\r\n", rest);
        LineBreakBytes();
      }
    }
  }
}

=== FILE: frontend.dfy ===
/**
 The `speak` tool of server.py, the MCP front end of the local service: the
 empty-text guard, the choice of voice from the `LOCAL_TTS_VOICE_PATH`
 setting, and the reply built from what the client returns.  The setting,
 the file-existence test, the client's I/O and Python's `repr` are
 parameters.
 */
module FrontEnd {
  import opened Wrappers
  import opened Json
  import opened Text
  import Client
  import Service

  const EmptyText := "Error: Text input is empty."
  const Queued := "Audio queued for generation."
  const QueueError := "Error queuing audio: "
  const CommFailure := "Error: Failed to communicate " + "with background service. "

  /** `os.path.basename`: what follows the last `/`. */
  function Basename(p: string): (r: string)
    ensures '/' !in r
    ensures |r| <= |p| && p[|p| - |r|..] == r
    ensures r == p || p[|p| - |r| - 1] == '/'
  {
    if p == [] || p[|p| - 1] == '/' then []
    else
      var front := p[..|p| - 1];
      var r := Basename(front) + [p[|p| - 1]];
      assert p == front + [p[|p| - 1]];
      r
  }

  /** The base name of a path joined under a directory is the name itself. */
  lemma {:induction false} BasenameOfJoin(dir: string, name: string)
    requires '/' !in name
    ensures Basename(dir + "/" + name) == name
  {
    var p := dir + "/" + name;
    if name != [] {
      var last := name[|name| - 1];
      assert p[..|p| - 1] == dir + "/" + name[..|name| - 1];
      assert p[|p| - 1] == last;
      BasenameOfJoin(dir, name[..|name| - 1]);
      assert name == name[..|name| - 1] + [last];
    }
  }

  /**
   The voice file and voice name `speak` passes on: both unset when the
   setting is unset or empty; the file and its base name marked
   `" (default)"` when the file exists; otherwise no file and `"random"`.
   */
  function VoiceFor(setting: Option<string>, fileExists: string -> bool): (r: (Option<string>, Option<string>))
    ensures setting.None? || setting.value == [] ==> r == (None, None)
    ensures setting.Some? && setting.value != [] && fileExists(setting.value) ==>
      r == (setting, Some(Basename(setting.value) + " (default)"))
    ensures setting.Some? && setting.value != [] && !fileExists(setting.value) ==> r == (None, Some("random"))
  {
    match setting
    case Some(p) =>
      if p == [] then (None, None)
      else if fileExists(p) then (Some(p), Some(Basename(p) + " (default)"))
      else (None, Some("random"))
    case None => (None, None)
  }

  /**
   Whatever the setting, the service can use the voice `speak` asks for:
   either a non-empty voice file, or a name that resolves into the catalogue
   (a missing file falls back to the service's random pick, an unset
   setting to the service's own choice).
   */
  lemma VoiceForIsUsable(setting: Option<string>, fileExists: string -> bool, pick: nat)
    requires pick < |Service.Voices|
    ensures var (path, name) := VoiceFor(setting, fileExists);
      (path.Some? ==> path.value != [] && setting == path && fileExists(path.value) &&
                      name == Some(Basename(path.value) + " (default)")) &&
      (name.None? <==> setting.None? || setting.value == []) &&
      (path.None? && name.Some? ==> name == Some("random")) &&
      (path.None? ==> Service.ResolveVoice(OfOptional(name), pick) == Ok(Service.Voices[pick])) &&
      (path.Some? <==> setting.Some? && setting.value != [] && fileExists(setting.value))
  {
    RandomResolves(pick);
  }

  /** An unset name and `"random"` both take the service's random pick. */
  lemma RandomResolves(pick: nat)
    requires pick < |Service.Voices|
    ensures Service.ResolveVoice(Null, pick) == Ok(Service.Voices[pick])
    ensures Service.ResolveVoice(Str("random"), pick) == Ok(Service.Voices[pick])
  {
    Service.CatalogueShape(pick);
    Service.CatalogueNamesResolve(pick, "", pick);
    assert Service.Voices[pick] != "random";
  }

  /** The service's reply names a queued request: a JSON object whose `status` is `"queued"`. */
  predicate IsQueued(resp: Json) {
    resp.Obj? && Get(resp.fields, "status", Null) == Str("queued")
  }

  /** Python's formatting: `repr` of a reply, and the `AttributeError` message for a reply that is not a dict. */
  datatype Show = Show(repr: Json -> string, noGet: Json -> string)

  /**
   The reply to what the client returned.  A non-dict reply makes `.get`
   raise, which ends like a failed exchange.
   */
  function ReplyTo(resp: Result<Json, string>, show: Show): (r: string)
    ensures r == Queued <==> resp.Ok? && IsQueued(resp.value)
    ensures resp.Err? || !resp.value.Obj? ==> CommFailure <= r
    ensures resp.Ok? && resp.value.Obj? && !IsQueued(resp.value) ==> QueueError <= r
  {
    NotQueued();
    match resp
    case Err(e) => CommFailure + e
    case Ok(j) =>
      if !j.Obj? then CommFailure + show.noGet(j)
      else if Get(j.fields, "status", Null) == Str("queued") then Queued
      else QueueError + show.repr(j)
  }

  /**
   `speak(text)`: the reply text, and whether the client was asked at all.
   Only a text with something besides whitespace reaches the client, and
   the reply is the queued one exactly when the service answered with a
   queued status.
   */
  function Speak(text: string, setting: Option<string>, fileExists: string -> bool, io: Client.Io, show: Show)
    : (r: (string, bool))
    ensures r.1 <==> NonSpace(text) != []
    ensures !r.1 ==> r.0 == EmptyText
    ensures r.0 == Queued <==>
      r.1 && var (path, name) := VoiceFor(setting, fileExists);
        var resp := Client.Speak(text, path, name, io);
        resp.Ok? && IsQueued(resp.value)
  {
    NotQueued();
    if text == [] || Strip(text) == [] then (EmptyText, false)
    else
      var (path, name) := VoiceFor(setting, fileExists);
      (ReplyTo(Client.Speak(text, path, name, io), show), true)
  }

  /** Error replies never read as the queued reply. */
  lemma NotQueued()
    ensures EmptyText != Queued
    ensures !(QueueError <= Queued) && !(CommFailure <= Queued)
    ensures forall s :: QueueError + s != Queued && CommFailure + s != Queued
  {
    assert QueueError[0] == 'E' && Queued[0] == 'A';
    assert |CommFailure| > |Queued|;
    forall s ensures QueueError + s != Queued && CommFailure + s != Queued {
      assert (QueueError + s)[0] == 'E';
      assert |CommFailure + s| > |Queued|;
    }
  }
}

=== FILE: json.dfy ===
/**
 JSON values as `json.loads` produces them, with Python's truthiness and
 `dict.get`.  Objects are maps: key order plays no part in anything modelled.
 */
module Json {
  import opened Wrappers

  datatype Json =
    | Null
    | Bool(b: bool)
    | Num(n: real)
    | Str(s: string)
    | Arr(items: seq<Json>)
    | Obj(fields: map<string, Json>)

  /** `bool(value)` in Python. */
  predicate Truthy(j: Json) {
    match j
    case Null => false
    case Bool(b) => b
    case Num(n) => n != 0.0
    case Str(s) => s != []
    case Arr(items) => items != []
    case Obj(fields) => fields != map[]
  }

  /** `data.get(key, default)` on an object. */
  function Get(fields: map<string, Json>, key: string, default: Json): (r: Json)
    ensures key in fields ==> r == fields[key]
    ensures key !in fields ==> r == default
  {
    if key in fields then fields[key] else default
  }

  /** `len(value)`: defined for strings, lists and objects; anything else raises `TypeError`. */
  function Length(j: Json): (r: Option<nat>)
    ensures r.None? <==> j.Null? || j.Bool? || j.Num?
  {
    match j
    case Str(s) => Some(|s|)
    case Arr(items) => Some(|items|)
    case Obj(fields) => Some(|fields|)
    case _ => None
  }

  /** Python's `None` for an optional string, and a string otherwise. */
  function OfOptional(s: Option<string>): (r: Json)
    ensures r.Null? <==> s.None?
    ensures s.Some? ==> r == Str(s.value)
  {
    match s
    case None => Null
    case Some(v) => Str(v)
  }
}

=== FILE: lex.dfy ===
/**
 Python's ordering of `str` values (lexicographic by code point) and the
 `sorted()` of a list of names under it.
 */
module Lex {

  /** `a < b` on Python strings. */
  predicate Less(a: string, b: string)
    decreases |a|
  {
    if a == [] then b != []
    else if b == [] then false
    else if a[0] != b[0] then a[0] < b[0]
    else Less(a[1..], b[1..])
  }

  predicate LessEq(a: string, b: string) {
    a == b || Less(a, b)
  }

  /**
   The textbook reading of the order: `a` is a proper prefix of `b`, or the
   first position where they differ holds the smaller character in `a`.
   */
  predicate FirstDifferenceLess(a: string, b: string) {
    (|a| < |b| && a == b[..|a|]) ||
    (exists k :: 0 <= k < |a| && k < |b| && a[..k] == b[..k] && a[k] < b[k])
  }

  lemma {:induction false} LessIsFirstDifference(a: string, b: string)
    ensures Less(a, b) <==> FirstDifferenceLess(a, b)
    decreases |a|
  {
    if a == [] || b == [] {
    } else if a[0] != b[0] {
      if a[0] < b[0] {
        assert a[..0] == b[..0];
      }
      if FirstDifferenceLess(a, b) && a[0] > b[0] {
        if |a| < |b| && a == b[..|a|] {
          assert false;
        } else {
          var k :| 0 <= k < |a| && k < |b| && a[..k] == b[..k] && a[k] < b[k];
          if k > 0 {
            assert false;
          }
        }
      }
    } else {
      var a', b' := a[1..], b[1..];
      LessIsFirstDifference(a', b');
      if FirstDifferenceLess(a', b') {
        if |a'| < |b'| && a' == b'[..|a'|] {
          assert a == [a[0]] + a' && b[..|a|] == [b[0]] + b'[..|a'|];
        } else {
          var k :| 0 <= k < |a'| && k < |b'| && a'[..k] == b'[..k] && a'[k] < b'[k];
          assert a[..k + 1] == [a[0]] + a'[..k] && b[..k + 1] == [b[0]] + b'[..k];
          assert a[k + 1] == a'[k] && b[k + 1] == b'[k];
        }
      }
      if FirstDifferenceLess(a, b) {
        if |a| < |b| && a == b[..|a|] {
          assert a' == b'[..|a'|];
        } else {
          var k :| 0 <= k < |a| && k < |b| && a[..k] == b[..k] && a[k] < b[k];
          assert k > 0;
          assert a'[..k - 1] == a[1..k] == b[1..k] == b'[..k - 1];
          assert a'[k - 1] == a[k] && b'[k - 1] == b[k];
        }
      }
    }
  }

  lemma {:induction false} Irreflexive(a: string)
    ensures !Less(a, a)
    decreases |a|
  {
    if a != [] {
      Irreflexive(a[1..]);
    }
  }

  lemma {:induction false} Asymmetric(a: string, b: string)
    requires Less(a, b)
    ensures !Less(b, a)
    decreases |a|
  {
    if a != [] && b != [] && a[0] == b[0] {
      Asymmetric(a[1..], b[1..]);
    }
  }

  lemma {:induction false} Transitive(a: string, b: string, c: string)
    requires Less(a, b) && Less(b, c)
    ensures Less(a, c)
    decreases |a|
  {
    if a != [] && a[0] == b[0] && b[0] == c[0] {
      Transitive(a[1..], b[1..], c[1..]);
    }
  }

  lemma {:induction false} Trichotomy(a: string, b: string)
    ensures a == b || Less(a, b) || Less(b, a)
    decreases |a|
  {
    if a != [] && b != [] && a[0] == b[0] {
      Trichotomy(a[1..], b[1..]);
      if a[1..] == b[1..] {
        assert a == [a[0]] + a[1..] && b == [b[0]] + b[1..];
      }
    }
  }

  /** Between strings of equal length, the order is decided by them alone, whatever follows. */
  lemma {:induction false} LessExtend(a: string, b: string, x: string, y: string)
    requires |a| == |b| && Less(a, b)
    ensures Less(a + x, b + y)
    decreases |a|
  {
    assert (a + x)[0] == a[0] && (b + y)[0] == b[0];
    if a[0] == b[0] {
      assert (a + x)[1..] == a[1..] + x && (b + y)[1..] == b[1..] + y;
      LessExtend(a[1..], b[1..], x, y);
    }
  }

  // ---------------------------------------------------------------- sorting

  predicate Sorted(s: seq<string>) {
    forall i, j :: 0 <= i < j < |s| ==> LessEq(s[i], s[j])
  }

  predicate Distinct(s: seq<string>) {
    forall i, j :: 0 <= i < j < |s| ==> s[i] != s[j]
  }

  /** Inserting into a sorted list keeps it sorted. */
  function Insert(x: string, s: seq<string>): (r: seq<string>)
    requires Sorted(s)
    ensures Sorted(r)
    ensures multiset(r) == multiset(s) + multiset{x}
    ensures |r| == |s| + 1
  {
    if s == [] then [x]
    else if LessEq(x, s[0]) then
      assert forall j :: 0 < j < |s| ==> LessEq(x, s[j]) by {
        forall j | 0 < j < |s| ensures LessEq(x, s[j]) {
          if x != s[0] && s[0] != s[j] {
            Transitive(x, s[0], s[j]);
          }
        }
      }
      [x] + s
    else
      var rest := Insert(x, s[1..]);
      Trichotomy(x, s[0]);
      assert s == [s[0]] + s[1..];
      assert forall k :: 0 <= k < |rest| ==> LessEq(s[0], rest[k]) by {
        forall k | 0 <= k < |rest| ensures LessEq(s[0], rest[k]) {
          assert rest[k] in multiset(rest);
          assert rest[k] == x || rest[k] in multiset(s[1..]);
          if rest[k] != x {
            var j :| 0 <= j < |s[1..]| && s[1..][j] == rest[k];
            assert s[j + 1] == rest[k];
          }
        }
      }
      [s[0]] + rest
  }

  /** `sorted(names)`. */
  function Sort(s: seq<string>): (r: seq<string>)
    ensures Sorted(r)
    ensures multiset(r) == multiset(s)
    ensures |r| == |s|
  {
    if s == [] then []
    else
      assert s == [s[0]] + s[1..];
      Insert(s[0], Sort(s[1..]))
  }

  /** A sorted list without repetitions is strictly increasing. */
  lemma StrictlySorted(s: seq<string>)
    requires Sorted(s) && Distinct(s)
    ensures forall i, j :: 0 <= i < j < |s| ==> Less(s[i], s[j])
  {
  }

  /** In a list without repetitions every element occurs once. */
  lemma {:induction false} OccursOnce(s: seq<string>, k: nat)
    requires Distinct(s) && k < |s|
    ensures multiset(s)[s[k]] == 1
  {
    var x := s[k];
    assert s == s[..k] + [x] + s[k + 1..];
    assert x !in multiset(s[..k]) by {
      forall m | 0 <= m < k ensures s[..k][m] != x {
        assert s[..k][m] == s[m];
      }
    }
    var tail := s[k + 1..];
    assert x !in multiset(tail) by {
      forall m | 0 <= m < |tail| ensures tail[m] != x {
        assert tail[m] == s[k + 1 + m];
      }
    }
  }

  lemma OccursTwice(r: seq<string>, i: nat, j: nat)
    requires i < j < |r| && r[i] == r[j]
    ensures multiset(r)[r[i]] >= 2
  {
    assert r == r[..i] + [r[i]] + r[i + 1..j] + [r[j]] + r[j + 1..];
  }

  /** Distinctness depends only on the elements, so sorting keeps it. */
  lemma DistinctPermutation(s: seq<string>, r: seq<string>)
    requires multiset(s) == multiset(r) && Distinct(s)
    ensures Distinct(r)
  {
    forall i, j | 0 <= i < j < |r| ensures r[i] != r[j] {
      if r[i] == r[j] {
        OccursTwice(r, i, j);
        assert r[i] in multiset(s);
        var k :| 0 <= k < |s| && s[k] == r[i];
        OccursOnce(s, k);
        assert false;
      }
    }
  }
}

=== FILE: playback.dfy ===
/**
 The `PlaybackCoordinator` of service.py: two counters that hand out
 playback tickets and grant turns strictly in ticket order.  The condition
 variable is not modelled; blocking in `wait_for_turn` is the predicate
 `MayProceed` being false.
 */
module Playback {
  import opened Wrappers

  /** `current_ticket` is the ticket allowed to play, `next_ticket` the next one to hand out. */
  datatype Coordinator = Coordinator(current: nat, next: nat)

  /** A freshly constructed coordinator. */
  const Fresh: Coordinator := Coordinator(0, 0)

  /** `get_ticket`: hand out `next_ticket` and count it. */
  function GetTicket(c: Coordinator): (r: (nat, Coordinator))
  {
    (c.next, c.(next := c.next + 1))
  }

  /** `wait_for_turn(ticket)` returns exactly when the ticket is the current one. */
  predicate MayProceed(c: Coordinator, ticket: nat) {
    ticket == c.current
  }

  /** `finish_turn`: the turn passes to the following ticket. */
  function FinishTurn(c: Coordinator): (r: Coordinator)
  {
    c.(current := c.current + 1)
  }

  /** The tickets that `n` successive calls of `get_ticket` return, and the coordinator after them. */
  function IssueMany(c: Coordinator, n: nat): (r: (seq<nat>, Coordinator))
    decreases n
  {
    if n == 0 then ([], c)
    else
      var (t, c1) := GetTicket(c);
      var (ts, c2) := IssueMany(c1, n - 1);
      ([t] + ts, c2)
  }

  /**
   Successive tickets are `next, next + 1, next + 2, …`: distinct and
   strictly increasing.  Handing out tickets never moves the turn.
   */
  lemma {:induction false} IssueInOrder(c: Coordinator, n: nat)
    ensures |IssueMany(c, n).0| == n
    ensures forall i :: 0 <= i < n ==> IssueMany(c, n).0[i] == c.next + i
    ensures IssueMany(c, n).1 == Coordinator(c.current, c.next + n)
    decreases n
  {
    if n > 0 {
      var c1 := GetTicket(c).1;
      IssueInOrder(c1, n - 1);
      var ts := IssueMany(c1, n - 1).0;
      assert IssueMany(c, n).0 == [c.next] + ts;
    }
  }

  /** Tickets from successive calls never repeat and grow strictly. */
  lemma IssuedDistinct(c: Coordinator, n: nat)
    ensures forall i, j :: 0 <= i < j < |IssueMany(c, n).0| ==>
      IssueMany(c, n).0[i] < IssueMany(c, n).0[j]
  {
    IssueInOrder(c, n);
  }

  /** The coordinator after `k` calls of `finish_turn`. */
  function FinishMany(c: Coordinator, k: nat): (r: Coordinator)
    decreases k
  {
    if k == 0 then c else FinishTurn(FinishMany(c, k - 1))
  }

  /**
   Turns come in ticket order: ticket `t` may proceed after exactly
   `t - current` turns have finished, and a ticket below `current` never
   gets a turn again.
   */
  lemma {:induction false} TurnsInOrder(c: Coordinator, k: nat, t: nat)
    ensures MayProceed(FinishMany(c, k), t) <==> t == c.current + k
    ensures FinishMany(c, k) == Coordinator(c.current + k, c.next)
    decreases k
  {
    if k > 0 {
      TurnsInOrder(c, k - 1, t);
    }
  }

  /**
   `play_audio(path, ticket, …)`: blocked until the ticket's turn; once it
   proceeds, whether the player succeeds or raises, the `finally` clause
   passes the turn on and removes the temporary file.
   */
  function PlayAudio<F>(c: Coordinator, files: set<F>, ticket: nat, path: F, playerFails: bool)
    : (r: Option<(Coordinator, set<F>)>)
    ensures r.Some? <==> MayProceed(c, ticket)
    ensures r.Some? ==> MayProceed(r.value.0, ticket + 1) && r.value.0.next == c.next
    ensures r.Some? ==> path !in r.value.1 && r.value.1 + {path} == files + {path}
  {
    if !MayProceed(c, ticket) then None
    else
      // the player's success or failure changes nothing that follows
      Some((FinishTurn(c), files - {path}))
  }
}

=== FILE: pocket_engine.dfy ===
/**
 The scenario engine of the Pocket TTS server (engine.py): the fixed map
 from scenario to voice, the shared engine built once, and `generate`,
 which falls back to the `answer` scenario and fills its voice cache on a
 miss.  The model is an opaque number; what loading it, computing a
 voice's prompt state and generating audio do are parameters.
 */
module PocketEngine {
  import opened Wrappers

  /** `SCENARIO_VOICE_MAP`. */
  const ScenarioVoice: map<string, string> :=
    map["answer" := "alba", "permission" := "jean", "error" := "javert", "success" := "fantine"]

  const DefaultScenario := "answer"

  /**
   The engine's fields: whether `__init__` finished, the loaded model (if
   any) and the cached prompt state per scenario.
   */
  datatype Engine = Engine(initialized: bool, model: Option<nat>, voiceStates: map<string, nat>)

  /** What `_load_model` meets: the model and its prompt state per voice, or the message of what it raised. */
  datatype Model = Model(id: nat, stateFor: string -> nat)

  /** Fully set up: initialized, with a model and a state for every scenario. */
  predicate Ready(e: Engine) {
    e.initialized && e.model.Some? && e.voiceStates.Keys == ScenarioVoice.Keys
  }

  /** The shared instance, once initialized, is ready. */
  predicate SharedReady(shared: Option<Engine>) {
    shared.Some? && shared.value.initialized ==> Ready(shared.value)
  }

  /**
   `PocketTTSEngine()`: the shared instance when it is initialized;
   otherwise a fresh load, which on success is the new shared instance and
   on failure leaves an uninitialized one behind and raises
   `RuntimeError("Engine initialization failed: ...")`.
   */
  function Construct(shared: Option<Engine>, load: Result<Model, string>)
    : (r: (Result<Engine, string>, Option<Engine>))
    ensures r.1.Some?
    ensures r.0.Ok? ==> r.1 == Some(r.0.value)
    ensures SharedReady(shared) ==> SharedReady(r.1) && (r.0.Ok? ==> Ready(r.0.value))
    ensures shared.Some? && shared.value.initialized ==> r == (Ok(shared.value), shared)
    ensures r.0.Err? <==> !(shared.Some? && shared.value.initialized) && load.Err?
    ensures r.0.Err? ==> !r.1.value.initialized && r.0 == Err("Engine initialization failed: " + load.error)
  {
    if shared.Some? && shared.value.initialized then (Ok(shared.value), shared)
    else
      match load
      case Ok(m) =>
        var e := Engine(true, Some(m.id), map s | s in ScenarioVoice :: m.stateFor(ScenarioVoice[s]));
        (Ok(e), Some(e))
      case Err(msg) => (Err("Engine initialization failed: " + msg), Some(Engine(false, None, map[])))
  }

  /** Once construction has succeeded, every later construction returns the same engine and loads nothing. */
  lemma ConstructOnce(shared: Option<Engine>, first: Result<Model, string>, later: Result<Model, string>)
    requires SharedReady(shared) && Construct(shared, first).0.Ok?
    ensures Construct(Construct(shared, first).1, later) == Construct(shared, first)
  {
  }

  /** A failed construction is retried in full by the next one. */
  lemma ConstructRetries(shared: Option<Engine>, first: Result<Model, string>, m: Model)
    requires Construct(shared, first).0.Err?
    ensures Construct(Construct(shared, first).1, Ok(m)) == Construct(None, Ok(m))
  {
  }

  /** The scenario `generate` actually uses: the given one when it is mapped, else `answer`. */
  function Effective(scenario: string): (s: string)
    ensures s in ScenarioVoice
    ensures scenario in ScenarioVoice <==> s == scenario
  {
    if scenario in ScenarioVoice then scenario else DefaultScenario
  }

  /** The metadata `generate` returns. */
  datatype Generated = Generated(status: string, outputPath: string, duration: real, scenario: string, voice: string)

  /**
   `generate(text, scenario, output_path)`.  Without a model it raises
   `RuntimeError("Model not initialized")` and changes nothing.  Otherwise
   the effective scenario's voice state comes from the cache, or is
   computed by `stateFor` and cached; then `audio` says how generating and
   writing the file went (its duration, or the message of what it raised,
   wrapped as `"Audio generation failed: ..."`).  The cache entry stays even
   when generation fails.
   */
  function Generate(e: Engine, scenario: string, outputPath: string,
                    stateFor: string -> nat, audio: Result<real, string>)
    : (r: (Result<Generated, string>, Engine))
    ensures e.model.None? ==> r == (Err("Model not initialized"), e)
    ensures r.0.Ok? ==> audio.Ok? && r.0.value == Generated("success", outputPath, audio.value,
                                               Effective(scenario), ScenarioVoice[Effective(scenario)])
    ensures e.model.Some? ==> (r.0.Ok? <==> audio.Ok?)
    ensures e.model.Some? && audio.Err? ==> r.0 == Err("Audio generation failed: " + audio.error)
    ensures r.1.initialized == e.initialized && r.1.model == e.model
    ensures forall s :: s in e.voiceStates ==> s in r.1.voiceStates && r.1.voiceStates[s] == e.voiceStates[s]
    ensures r.1.voiceStates.Keys == e.voiceStates.Keys + (if e.model.Some? then {Effective(scenario)} else {})
  {
    if e.model.None? then (Err("Model not initialized"), e)
    else
      var s := Effective(scenario);
      var e' := if s in e.voiceStates then e
                else e.(voiceStates := e.voiceStates[s := stateFor(ScenarioVoice[s])]);
      match audio
      case Ok(d) => (Ok(Generated("success", outputPath, d, s, ScenarioVoice[s])), e')
      case Err(msg) => (Err("Audio generation failed: " + msg), e')
  }

  /** A scenario outside the map behaves exactly like `answer`. */
  lemma UnknownScenarioIsAnswer(e: Engine, scenario: string, outputPath: string,
                                stateFor: string -> nat, audio: Result<real, string>)
    requires scenario !in ScenarioVoice
    ensures Generate(e, scenario, outputPath, stateFor, audio) ==
            Generate(e, DefaultScenario, outputPath, stateFor, audio)
  {
  }

  /** A ready engine never touches its cache. */
  lemma ReadyKeepsCache(e: Engine, scenario: string, outputPath: string,
                        stateFor: string -> nat, audio: Result<real, string>)
    requires Ready(e)
    ensures Generate(e, scenario, outputPath, stateFor, audio).1 == e
  {
  }

  /** The cache is filled at most once per scenario: a second `generate` for it leaves the engine as the first left it. */
  lemma CacheFilledOnce(e: Engine, scenario: string, p1: string, p2: string,
                        f1: string -> nat, f2: string -> nat,
                        a1: Result<real, string>, a2: Result<real, string>)
    ensures var e1 := Generate(e, scenario, p1, f1, a1).1;
      Generate(e1, scenario, p2, f2, a2).1 == e1
  {
  }

  /** Each scenario has its own voice. */
  lemma VoicesDistinct()
    ensures forall s, t :: s in ScenarioVoice && t in ScenarioVoice && s != t ==> ScenarioVoice[s] != ScenarioVoice[t]
  {
  }

  /**
   The voice a generation reports names the scenario it used: two
   successful generations that report the same voice used the same
   scenario.
   */
  lemma VoiceIdentifiesScenario(e1: Engine, s1: string, p1: string, f1: string -> nat, a1: Result<real, string>,
                                e2: Engine, s2: string, p2: string, f2: string -> nat, a2: Result<real, string>)
    requires Generate(e1, s1, p1, f1, a1).0.Ok? && Generate(e2, s2, p2, f2, a2).0.Ok?
    requires Generate(e1, s1, p1, f1, a1).0.value.voice == Generate(e2, s2, p2, f2, a2).0.value.voice
    ensures Effective(s1) == Effective(s2)
  {
    VoicesDistinct();
  }
}

=== FILE: pocket_server.dfy ===
/**
 The `generate_speech` tool of the Pocket TTS server (server.py): the length
 guard, the temporary wav file that exists only for the length of the
 call, the engine call, playback, and the reply.  The temporary path
 `mkstemp` chooses, what generation and playback do and the duration
 formatting are parameters.
 */
module PocketServer {
  import opened Wrappers
  import opened PocketEngine

  /** The longest text accepted. */
  const MaxLength := 1000

  // Long literals are written in pieces of under 40 characters, which the
  // verifier can see into.
  const TooLong := "Error: Text is too long. " + "Please provide concise text " + "(under 1000 characters)."
  const GenerationError := "Error generating speech: "
  const Played := "Audio played successfully."
  const PlaybackFailed := "Audio generated but " + "playback failed: "
  const Deleted := "Note: Audio file has been " + "deleted after playback."

  /** What the tool acts on: the shared engine and the files in the temporary directory. */
  datatype World = World(engine: Engine, files: set<string>)

  /**
   One call's surroundings: the fresh path `mkstemp` returns, the voice
   prompt computation, how generating and writing went, how `afplay` went,
   and `f"{duration:.2f}"`.
   */
  datatype Env = Env(
    tempPath: string,
    stateFor: string -> nat,
    audio: Result<real, string>,
    playback: Result<(), string>,
    twoDecimals: real -> string)

  /** The playback line of the reply. */
  function PlaybackStatus(p: Result<(), string>): (r: string)
    ensures p.Ok? <==> r == Played
    ensures p.Err? ==> r == PlaybackFailed + p.error
  {
    match p
    case Ok(_) => Played
    case Err(e) =>
      assert (PlaybackFailed + e)[1] == 'u' && Played[1] == 'u';
      assert |PlaybackFailed + e| > |Played|;
      PlaybackFailed + e
  }

  /** Lines joined with `"\n"`. */
  function JoinLines(ls: seq<string>): (r: string)
    requires |ls| >= 1
    ensures ls[0] <= r
  {
    if |ls| == 1 then ls[0] else ls[0] + "\n" + JoinLines(ls[1..])
  }

  /** `s.split("\n")`: the pieces between newlines, always at least one. */
  function SplitLines(s: string): (r: seq<string>)
    ensures |r| >= 1
  {
    if s == [] then [[]]
    else
      var rest := SplitLines(s[1..]);
      if s[0] == '\n' then [[]] + rest else [[s[0]] + rest[0]] + rest[1..]
  }

  /** A newline-free text in front of a newline is the first piece of the split. */
  lemma {:induction false} SplitAfterLine(line: string, t: string)
    requires '\n' !in line
    ensures SplitLines(line + "\n" + t) == [line] + SplitLines(t)
  {
    if line == [] {
      assert line + "\n" + t == "\n" + t;
      assert ("\n" + t)[1..] == t;
    } else {
      assert (line + "\n" + t)[1..] == line[1..] + "\n" + t;
      SplitAfterLine(line[1..], t);
      assert [line[0]] + line[1..] == line;
    }
  }

  /** A newline-free text splits into itself. */
  lemma {:induction false} SplitOneLine(line: string)
    requires '\n' !in line
    ensures SplitLines(line) == [line]
  {
    if line != [] {
      SplitOneLine(line[1..]);
      assert [line[0]] + line[1..] == line;
    }
  }

  /** Splitting undoes joining, for lines without newlines. */
  lemma {:induction false} SplitJoin(ls: seq<string>)
    requires |ls| >= 1 && forall i :: 0 <= i < |ls| ==> '\n' !in ls[i]
    ensures SplitLines(JoinLines(ls)) == ls
  {
    if |ls| == 1 {
      SplitOneLine(ls[0]);
    } else {
      SplitJoin(ls[1..]);
      SplitAfterLine(ls[0], JoinLines(ls[1..]));
      assert [ls[0]] + ls[1..] == ls;
    }
  }

  /** The five lines of the success reply. */
  function SuccessLines(context: string, voice: string, duration: string, status: string): (ls: seq<string>)
    ensures |ls| == 5 && ls[4] == Deleted
  {
    ["Successfully generated and played " + "audio for context '" + context + "'.",
     "Voice: " + voice,
     "Duration: " + duration + "s",
     "Status: " + status,
     Deleted]
  }

  /** The success reply. */
  function SuccessReply(context: string, voice: string, duration: string, status: string): (r: string)
    ensures |r| > 0 && r[0] == 'S'
  {
    var ls := SuccessLines(context, voice, duration, status);
    assert ls[0][0] == 'S';
    JoinLines(ls)
  }

  /**
   The success reply has exactly its five lines when the context, voice,
   duration and playback status hold no newline.
   */
  lemma SuccessHasFiveLines(context: string, voice: string, duration: string, status: string)
    requires '\n' !in context && '\n' !in voice && '\n' !in duration && '\n' !in status
    ensures SplitLines(SuccessReply(context, voice, duration, status)) == SuccessLines(context, voice, duration, status)
  {
    var ls := SuccessLines(context, voice, duration, status);
    forall i | 0 <= i < |ls| ensures '\n' !in ls[i] {
    }
    SplitJoin(ls);
  }

  /** The refusal is told apart from the other replies by its first characters. */
  lemma TooLongIsNotError(msg: string)
    ensures TooLong != GenerationError + msg
  {
    assert TooLong[5] == ':' && (GenerationError + msg)[5] == ' ';
  }

  lemma TooLongIsNotSuccess(context: string, voice: string, duration: string, status: string)
    ensures TooLong != SuccessReply(context, voice, duration, status)
  {
    assert TooLong[0] == 'E';
  }

  /** The reply once the engine has been called: its error, or the success reply with the playback status. */
  function ReplyTo(result: Result<Generated, string>, context: string, env: Env): (r: string)
    ensures r != TooLong
    ensures result.Err? ==> r == GenerationError + result.error
    ensures result.Ok? ==>
      r == SuccessReply(context, result.value.voice, env.twoDecimals(result.value.duration), PlaybackStatus(env.playback))
  {
    match result
    case Err(msg) =>
      TooLongIsNotError(msg);
      GenerationError + msg
    case Ok(g) =>
      var status := PlaybackStatus(env.playback);
      TooLongIsNotSuccess(context, g.voice, env.twoDecimals(g.duration), status);
      SuccessReply(context, g.voice, env.twoDecimals(g.duration), status)
  }

  /**
   `generate_speech(text, context)`: the reply and the world after it.  A
   text over the limit is refused before anything happens; otherwise the
   temporary file is created, the engine called, the audio played, and the
   file removed on every path out.  The reply names the voice of the
   effective scenario, and a failed playback still counts as a success.
   */
  function GenerateSpeech(w: World, text: string, context: string, env: Env): (r: (string, World))
    requires env.tempPath !in w.files
    ensures r.1.files == w.files
    ensures |text| > MaxLength <==> r.0 == TooLong
    ensures |text| > MaxLength ==> r.1 == w
    ensures |text| <= MaxLength && w.engine.model.None? ==>
      r == (GenerationError + "Model not initialized", w)
    ensures |text| <= MaxLength && w.engine.model.Some? && env.audio.Err? ==>
      r.0 == GenerationError + "Audio generation failed: " + env.audio.error
    ensures |text| <= MaxLength && w.engine.model.Some? && env.audio.Ok? ==>
      r.0 == SuccessReply(context, ScenarioVoice[Effective(context)], env.twoDecimals(env.audio.value),
                          PlaybackStatus(env.playback))
    ensures Ready(w.engine) ==> r.1 == w
  {
    if |text| > MaxLength then (TooLong, w)
    else
      var files := w.files + {env.tempPath};
      var (result, engine) := Generate(w.engine, context, env.tempPath, env.stateFor, env.audio);
      var files' := files - {env.tempPath};
      var reply := ReplyTo(result, context, env);
      (reply, World(engine, files'))
  }

  /** A text of exactly the limit is accepted; one character more is refused. */
  lemma LimitIsInclusive(w: World, text: string, context: string, env: Env, c: char)
    requires env.tempPath !in w.files && |text| == MaxLength
    ensures GenerateSpeech(w, text, context, env).0 != TooLong
    ensures GenerateSpeech(w, text + [c], context, env) == (TooLong, w)
  {
  }

  /**
   With a model and a newline-free context and playback error, a generated
   reply has five lines, the last one the deletion note: the audio is
   reported deleted exactly when the temporary file is gone.
   */
  lemma GeneratedReplyLines(w: World, text: string, context: string, env: Env)
    requires env.tempPath !in w.files && |text| <= MaxLength
    requires w.engine.model.Some? && env.audio.Ok?
    requires '\n' !in context && '\n' !in env.twoDecimals(env.audio.value)
    requires env.playback.Err? ==> '\n' !in env.playback.error
    ensures var r := GenerateSpeech(w, text, context, env);
      var ls := SplitLines(r.0);
      |ls| == 5 && ls[4] == Deleted && env.tempPath !in r.1.files
  {
    var voice := ScenarioVoice[Effective(context)];
    assert '\n' !in voice;
    var status := PlaybackStatus(env.playback);
    assert '\n' !in status;
    SuccessHasFiveLines(context, voice, env.twoDecimals(env.audio.value), status);
  }
}

=== FILE: posix.dfy ===
/**
 The operating-system facts the coordination code consults, as values:
 a directory is its listing (entries in `iterdir()` order, names unique),
 `os.kill(pid, 0)` is an outcome supplied by the caller, and removing a file
 is filtering the listing.
 */
module Posix {
  import opened Wrappers

  /** What `os.kill(pid, 0)` does for a positive pid. */
  datatype KillResult = Delivered | NoSuchProcess | NotPermitted | OtherOSError

  /** The largest pid `os.kill` accepts, a C `int`; a larger one makes it raise `OverflowError`. */
  const MaxPid: int := 0x7fff_ffff

  /**
   `_pid_alive(pid)` in system_lock.py: a pid that is not positive is never
   alive (it would name a process group); otherwise the process exists when
   the signal could be delivered or was refused for lack of permission.  A
   pid too large for `os.kill` makes it raise `OverflowError`, which is not
   an `OSError` and escapes, as `Err`.
   */
  function PidAlive(pid: int, kill: int -> KillResult): (r: Result<bool, string>)
    ensures r.Err? <==> pid > MaxPid
    ensures r == Ok(true) <==> 0 < pid <= MaxPid && (kill(pid) == Delivered || kill(pid) == NotPermitted)
    ensures pid <= 0 ==> r == Ok(false)
  {
    if pid <= 0 then Ok(false)
    else if pid > MaxPid then Err("OverflowError")
    else
      match kill(pid)
      case Delivered => Ok(true)
      case NotPermitted => Ok(true)
      case NoSuchProcess => Ok(false)
      case OtherOSError => Ok(false)
  }

  /**
   Whether a cleanup keeps the file of `pid`: only when `_pid_alive` answers
   true.  A false answer leads to the unlink, and so does the escaping
   `OverflowError`, which lands in the cleanup's own `except`.
   */
  predicate Alive(pid: int, kill: int -> KillResult) {
    PidAlive(pid, kill) == Ok(true)
  }

  /** A directory entry: its file name and what reading it yields. */
  datatype Entry<C> = Entry(name: string, content: C)

  predicate UniqueNames<C>(d: seq<Entry<C>>) {
    forall i, j :: 0 <= i < j < |d| ==> d[i].name != d[j].name
  }

  predicate EndsWith(s: string, suffix: string) {
    |suffix| <= |s| && s[|s| - |suffix|..] == suffix
  }

  /** Text put in front keeps an ending. */
  lemma EndsWithAfter(a: string, b: string, suffix: string)
    requires EndsWith(b, suffix)
    ensures EndsWith(a + b, suffix)
  {
    var s := a + b;
    var x, y := s[|s| - |suffix|..], b[|b| - |suffix|..];
    assert forall k :: 0 <= k < |suffix| ==> x[k] == y[k];
    assert x == y;
  }

  /** The entries of a listing that satisfy `keep`, in listing order. */
  function Filter<C(!new)>(d: seq<Entry<C>>, keep: Entry<C> -> bool): (r: seq<Entry<C>>)
    ensures |r| <= |d|
    ensures forall e :: e in r <==> e in d && keep(e)
    ensures UniqueNames(d) ==> UniqueNames(r)
  {
    if d == [] then []
    else
      var rest := Filter(d[1..], keep);
      assert forall e :: e in d <==> e == d[0] || e in d[1..];
      if keep(d[0]) then
        assert UniqueNames(d) ==> forall e :: e in rest ==> e.name != d[0].name by {
          if UniqueNames(d) {
            forall e | e in rest ensures e.name != d[0].name {
              var j :| 0 <= j < |d[1..]| && d[1..][j] == e;
              assert d[j + 1] == e;
            }
          }
        }
        [d[0]] + rest
      else rest
  }

  /** `path.unlink(missing_ok=True)` on the entry called `name`. */
  function Unlink<C(!new)>(d: seq<Entry<C>>, name: string): (r: seq<Entry<C>>)
    ensures forall e :: e in r <==> e in d && e.name != name
    ensures UniqueNames(d) ==> UniqueNames(r)
  {
    Filter(d, (e: Entry<C>) => e.name != name)
  }

  /** The last position of `c` in `s`, as `str.rfind` reports it (`-1` when absent). */
  function RFind(s: string, c: char): (i: int)
    ensures -1 <= i < |s|
    ensures i >= 0 ==> s[i] == c
    ensures forall k :: i < k < |s| ==> s[k] != c
  {
    if s == [] then -1
    else if s[|s| - 1] == c then |s| - 1
    else RFind(s[..|s| - 1], c)
  }

  /**
   `Path(name).suffix`: from the last dot to the end, provided that dot is
   neither the first character (a hidden file) nor the last.
   */
  function Suffix(name: string): (r: string)
    ensures r == [] || (r[0] == '.' && EndsWith(name, r) && |r| < |name|)
  {
    var i := RFind(name, '.');
    if 0 < i < |name| - 1 then name[i..] else []
  }

  /** A name's suffix is `sfx` (a dot followed by dot-free text) exactly when the name ends with it after at least one character. */
  lemma SuffixIs(name: string, sfx: string)
    requires |sfx| >= 2 && sfx[0] == '.' && forall k :: 0 < k < |sfx| ==> sfx[k] != '.'
    ensures Suffix(name) == sfx <==> |name| > |sfx| && EndsWith(name, sfx)
  {
    var i := RFind(name, '.');
    if |name| > |sfx| && EndsWith(name, sfx) {
      var j := |name| - |sfx|;
      assert name[j] == sfx[0];
      forall k | j < k < |name| ensures name[k] != '.' {
        assert name[k] == name[j..][k - j] == sfx[k - j];
      }
      assert i == j;
    }
    if Suffix(name) == sfx {
      assert 0 < i < |name| - 1;
    }
  }
}

=== FILE: registry.dfy ===
/**
 The instance registry of system_lock.py: one `<instance_id>.json` file per
 running server, purged of dead processes and listed by start time.
 */
module Registry {
  import opened Posix

  /**
   What reading a registry file yields: its `pid` and `start_time` (a missing
   key reads as 0, as `info.get(key, 0)` does), or `Unreadable` when it is
   not valid JSON, not an object, or has a `pid` that is not an integer (the
   comparison or `os.kill` then raises into the cleanup's `except`, which
   unlinks the file).  A readable record's `start_time` is a number: a live
   record with a non-numeric one, on which `sorted` raises `TypeError`, is
   not represented.
   */
  datatype Record = Unreadable | Record(pid: int, startTime: real)

  type RegistryDir = seq<Entry<Record>>

  const RegistrySuffix: string := ".json"

  /** `entry.suffix != ".json"`: the loops skip such files. */
  predicate IsRecordFile(name: string) {
    Suffix(name) == RegistrySuffix
  }

  /** A registry file ends in `.json` after at least one character. */
  lemma RecordFileName(name: string)
    ensures IsRecordFile(name) <==> |name| > |RegistrySuffix| && EndsWith(name, RegistrySuffix)
  {
    SuffixIs(name, RegistrySuffix);
  }

  /** The files `_cleanup_stale_registry` unlinks: unreadable records and records of dead processes. */
  predicate IsStaleRecord(e: Entry<Record>, kill: int -> KillResult) {
    IsRecordFile(e.name) &&
    match e.content
    case Unreadable => true
    case Record(pid, _) => !Alive(pid, kill)
  }

  /** `_cleanup_stale_registry`: deletes exactly the stale records; other files stay. */
  function CleanupStaleRegistry(d: RegistryDir, kill: int -> KillResult): (r: RegistryDir)
    ensures forall e :: e in r <==> e in d && !IsStaleRecord(e, kill)
    ensures UniqueNames(d) ==> UniqueNames(r)
  {
    Filter(d, (e: Entry<Record>) => !IsStaleRecord(e, kill))
  }

  /** After the purge, every record file is readable and belongs to a process that answers. */
  lemma SurvivorsAlive(d: RegistryDir, kill: int -> KillResult)
    ensures forall e :: e in CleanupStaleRegistry(d, kill) && IsRecordFile(e.name) ==>
      e.content.Record? && Alive(e.content.pid, kill)
  {
  }

  /**
   A record whose pid is beyond what `os.kill` accepts is purged: the
   `OverflowError` lands in the same `except` that unlinks unreadable records.
   */
  lemma OverflowRecordPurged(d: RegistryDir, kill: int -> KillResult, e: Entry<Record>)
    requires e in d && IsRecordFile(e.name) && e.content.Record? && e.content.pid > MaxPid
    ensures e !in CleanupStaleRegistry(d, kill)
  {
  }

  /** The sort key `i.get("start_time", 0)`. */
  function Start(x: Record): real {
    if x.Record? then x.startTime else 0.0
  }

  /** Records in `start_time` order. */
  predicate SortedByStart(s: seq<Record>) {
    forall i, j :: 0 <= i < j < |s| ==> Start(s[i]) <= Start(s[j])
  }

  predicate AllRecords(s: seq<Record>) {
    forall i :: 0 <= i < |s| ==> s[i].Record?
  }

  /** Places `x` before the first record that does not start earlier. */
  function InsertByStart(x: Record, s: seq<Record>): (r: seq<Record>)
    requires SortedByStart(s)
    ensures SortedByStart(r)
    ensures multiset(r) == multiset(s) + multiset{x}
    ensures |r| == |s| + 1
  {
    if s == [] || Start(x) <= Start(s[0]) then [x] + s
    else
      var rest := InsertByStart(x, s[1..]);
      assert s == [s[0]] + s[1..];
      FirstIsLeast(s, x, rest);
      SortedCons(s[0], rest);
      assert multiset([s[0]] + rest) == multiset{s[0]} + multiset(rest);
      [s[0]] + rest
  }

  lemma SortedCons(a: Record, rest: seq<Record>)
    requires SortedByStart(rest) && forall k :: 0 <= k < |rest| ==> Start(a) <= Start(rest[k])
    ensures SortedByStart([a] + rest)
  {
    var r := [a] + rest;
    forall i, j | 0 <= i < j < |r| ensures Start(r[i]) <= Start(r[j]) {
      assert r[j] == rest[j - 1];
      if i > 0 {
        assert r[i] == rest[i - 1];
      }
    }
  }

  /** The first record of a sorted listing starts no later than anything in its rest with a later record added. */
  lemma FirstIsLeast(s: seq<Record>, x: Record, rest: seq<Record>)
    requires SortedByStart(s) && s != [] && Start(s[0]) <= Start(x)
    requires multiset(rest) == multiset(s[1..]) + multiset{x}
    ensures forall k :: 0 <= k < |rest| ==> Start(s[0]) <= Start(rest[k])
  {
    forall k | 0 <= k < |rest| ensures Start(s[0]) <= Start(rest[k]) {
      assert rest[k] in multiset(rest);
      if rest[k] != x {
        assert rest[k] in multiset(s[1..]);
        var j :| 0 <= j < |s[1..]| && s[1..][j] == rest[k];
        assert s[j + 1] == rest[k];
      }
    }
  }

  /** `sorted(instances, key=start_time)`: a rearrangement in `start_time` order. */
  function SortByStart(s: seq<Record>): (r: seq<Record>)
    ensures SortedByStart(r)
    ensures multiset(r) == multiset(s)
  {
    if s == [] then []
    else
      assert s == [s[0]] + s[1..];
      InsertByStart(s[0], SortByStart(s[1..]))
  }

  /** The contents of the readable record files, in listing order. */
  function Readable(d: RegistryDir): (r: seq<Record>)
    ensures AllRecords(r)
    ensures forall x :: x in r <==> x.Record? && exists e :: e in d && IsRecordFile(e.name) && e.content == x
  {
    if d == [] then []
    else
      var rest := Readable(d[1..]);
      assert forall e :: e in d <==> e == d[0] || e in d[1..];
      if IsRecordFile(d[0].name) && d[0].content.Record? then [d[0].content] + rest else rest
  }

  /**
   `get_active_instances`: purge, then the records of the surviving record
   files sorted by start time.  Each one belongs to a live process, and
   every live, readable record in the registry is listed.
   */
  function ActiveInstances(d: RegistryDir, kill: int -> KillResult): (r: seq<Record>)
    ensures AllRecords(r) && SortedByStart(r)
    ensures forall x :: x in r <==>
      x.Record? && Alive(x.pid, kill) && exists e :: e in d && IsRecordFile(e.name) && e.content == x
  {
    var cleaned := CleanupStaleRegistry(d, kill);
    var found := Readable(cleaned);
    var r := SortByStart(found);
    assert forall x :: x in r <==> x in found by {
      forall x ensures x in r <==> x in found {
        assert x in r <==> x in multiset(r);
        assert x in found <==> x in multiset(found);
      }
    }
    r
  }

  /** The registry file of an instance: `<instance_id>.json`. */
  function RecordName(instanceId: string): (name: string)
    ensures instanceId != [] ==> IsRecordFile(name)
  {
    var name := instanceId + RegistrySuffix;
    assert name[|name| - |RegistrySuffix|..] == RegistrySuffix;
    RecordFileName(name);
    name
  }

  /** `_register`: writes the instance's record under its name, replacing any file of that name. */
  function Register(d: RegistryDir, instanceId: string, pid: int, now: real): (r: RegistryDir)
    ensures Entry(RecordName(instanceId), Record(pid, now)) in r
    ensures forall e :: e in r && e.name != RecordName(instanceId) <==> e in d && e.name != RecordName(instanceId)
    ensures UniqueNames(d) ==> UniqueNames(r)
  {
    var name := RecordName(instanceId);
    var rest := Unlink(d, name);
    var r := rest + [Entry(name, Record(pid, now))];
    assert UniqueNames(d) ==> UniqueNames(r) by {
      if UniqueNames(d) {
        forall i, j | 0 <= i < j < |r| ensures r[i].name != r[j].name {
          if j == |r| - 1 {
            assert r[i] in rest;
          }
        }
      }
    }
    r
  }

  /** `_deregister`: removes the instance's record file, if any. */
  function Deregister(d: RegistryDir, instanceId: string): (r: RegistryDir)
    ensures forall e :: e in r <==> e in d && e.name != RecordName(instanceId)
  {
    Unlink(d, RecordName(instanceId))
  }

  /** A registered instance whose process answers is listed by `get_active_instances`. */
  lemma RegisteredIsListed(d: RegistryDir, instanceId: string, pid: int, now: real, kill: int -> KillResult)
    requires instanceId != [] && Alive(pid, kill)
    ensures Record(pid, now) in ActiveInstances(Register(d, instanceId, pid, now), kill)
  {
    var d' := Register(d, instanceId, pid, now);
    assert Entry(RecordName(instanceId), Record(pid, now)) in d';
  }

  /** After deregistering, whatever is listed comes from some other record file. */
  lemma DeregisteredIsGone(d: RegistryDir, instanceId: string, kill: int -> KillResult)
    ensures forall x :: x in ActiveInstances(Deregister(d, instanceId), kill) ==>
      exists e :: e in d && e.name != RecordName(instanceId) && IsRecordFile(e.name) && e.content == x
  {
  }
}

=== FILE: resources.dfy ===
/**
 The memory policy of resource_manager.py: the status snapshot and its
 critical flag, the once-only construction of the shared manager, the
 idempotent `start`, and the allocation feasibility test.  Memory readings
 are parameters; floating point is modelled by exact reals.
 */
module Resources {
  import opened Wrappers

  const DefaultThreshold: real := 85.0
  const DefaultInterval: real := 2.0

  /** One reading of `psutil.virtual_memory()`, in percent and MB. */
  datatype Reading = Reading(percent: real, availableMb: real, totalMb: real)

  /** `SystemStatus`. */
  datatype Status = Status(percent: real, availableMb: real, totalMb: real, cpuPercent: real, critical: bool)

  datatype Manager = Manager(threshold: real, interval: real, monitoring: bool, status: Status)

  /** A status built from a reading: critical exactly when the used percentage exceeds the threshold. */
  function Snapshot(r: Reading, cpu: real, threshold: real): (s: Status)
    ensures s.critical <==> r.percent > threshold
    ensures s.percent == r.percent && s.totalMb == r.totalMb
  {
    Status(r.percent, r.availableMb, r.totalMb, cpu, r.percent > threshold)
  }

  /** The manager's status agrees with its own threshold. */
  predicate Consistent(m: Manager) {
    m.status.critical <==> m.status.percent > m.threshold
  }

  /**
   `ResourceManager(threshold, interval)`: the first construction builds the
   shared instance from a reading (CPU 0, not monitoring); every later one
   returns that instance untouched, whatever arguments it is given.
   */
  function Construct(shared: Option<Manager>, threshold: real, interval: real, r: Reading)
    : (res: (Manager, Option<Manager>))
    ensures res.1 == Some(res.0)
    ensures shared.Some? ==> res.0 == shared.value
    ensures shared.None? ==>
      res.0.threshold == threshold && res.0.interval == interval && !res.0.monitoring && Consistent(res.0)
  {
    match shared
    case Some(m) => (m, shared)
    case None =>
      var m := Manager(threshold, interval, false, Snapshot(r, 0.0, threshold));
      (m, Some(m))
  }

  /** Constructing again changes nothing: the second result is the first. */
  lemma ConstructOnce(shared: Option<Manager>, t1: real, i1: real, r1: Reading, t2: real, i2: real, r2: Reading)
    ensures var (m1, s1) := Construct(shared, t1, i1, r1);
      Construct(s1, t2, i2, r2) == (m1, s1)
  {
  }

  /** `start`: does nothing when already monitoring. */
  function Start(m: Manager): (r: Manager)
    ensures r.monitoring
    ensures m.monitoring ==> r == m
    ensures r.(monitoring := m.monitoring) == m
  {
    if m.monitoring then m else m.(monitoring := true)
  }

  lemma StartIdempotent(m: Manager)
    ensures Start(Start(m)) == Start(m)
  {
  }

  /**
   One pass of the monitor loop: a fresh snapshot under the manager's
   threshold, or, when sampling raises, the previous status kept.
   */
  function MonitorTick(m: Manager, sample: Option<(Reading, real)>): (r: Manager)
    ensures Consistent(m) ==> Consistent(r)
    ensures r.threshold == m.threshold && r.interval == m.interval && r.monitoring == m.monitoring
    ensures sample.Some? ==> r.status.percent == sample.value.0.percent
  {
    match sample
    case None => m
    case Some((reading, cpu)) => m.(status := Snapshot(reading, cpu, m.threshold))
  }

  /** `is_safe_to_run`. */
  function IsSafeToRun(m: Manager): (r: bool)
    ensures Consistent(m) ==> (r <==> m.status.percent <= m.threshold)
  {
    !m.status.critical
  }

  /**
   `check_allocation_feasibility(estimated)`: the used percentage after
   allocating `estimated` MB more must not exceed the threshold.  A total of
   zero makes the division raise.
   */
  function Feasible(m: Manager, estimated: real): (r: Result<bool, string>)
  {
    var total := m.status.totalMb;
    if total == 0.0 then Err("division by zero")
    else
      var currentUsed := total * (m.status.percent / 100.0);
      var newUsed := currentUsed + estimated;
      var newPercent := (newUsed / total) * 100.0;
      Ok(!(newPercent > m.threshold))
  }

  /** With a known total, the test is: current percentage plus the allocation's share of the total. */
  lemma FeasibleIff(m: Manager, estimated: real)
    requires m.status.totalMb != 0.0
    ensures Feasible(m, estimated) ==
      Ok(m.status.percent + estimated * 100.0 / m.status.totalMb <= m.threshold)
  {
    var total, p := m.status.totalMb, m.status.percent;
    calc {
      ((total * (p / 100.0) + estimated) / total) * 100.0;
      (total * (p / 100.0) / total + estimated / total) * 100.0;
      { assert total * (p / 100.0) / total == p / 100.0; }
      (p / 100.0 + estimated / total) * 100.0;
      p + estimated * 100.0 / total;
    }
  }

  /** A smaller allocation is feasible whenever a larger one is (for a positive total). */
  lemma FeasibleMonotone(m: Manager, small: real, large: real)
    requires m.status.totalMb > 0.0 && small <= large
    requires Feasible(m, large) == Ok(true)
    ensures Feasible(m, small) == Ok(true)
  {
    FeasibleIff(m, small);
    FeasibleIff(m, large);
    var t := m.status.totalMb;
    assert small * 100.0 / t <= large * 100.0 / t by {
      assert small * 100.0 <= large * 100.0;
      DivMonotone(small * 100.0, large * 100.0, t);
    }
  }

  lemma DivMonotone(a: real, b: real, t: real)
    requires a <= b && t > 0.0
    ensures a / t <= b / t
  {
    assert b / t - a / t == (b - a) / t;
  }

  /** Allocating nothing is feasible exactly when the status is not critical. */
  lemma FeasibleNothing(m: Manager)
    requires Consistent(m) && m.status.totalMb != 0.0
    ensures Feasible(m, 0.0) == Ok(!m.status.critical)
  {
    FeasibleIff(m, 0.0);
  }

  /** At 50% of 1000 MB with an 80% threshold, 100 MB fits (60%) and 400 MB does not (90%). */
  lemma FeasibilityExamples()
    ensures var m := Manager(80.0, DefaultInterval, false, Status(50.0, 500.0, 1000.0, 0.0, false));
      Feasible(m, 100.0) == Ok(true) && Feasible(m, 400.0) == Ok(false)
  {
    var m := Manager(80.0, DefaultInterval, false, Status(50.0, 500.0, 1000.0, 0.0, false));
    FeasibleIff(m, 100.0);
    FeasibleIff(m, 400.0);
  }
}

=== FILE: service.dfy ===
/**
 The sequential decisions of the inference service (service.py): request
 intake in `handle_generate`, the built-in voice fallback chain, the model
 slot with its idle unload, and how the worker's handling of one task ends.
 */
module Service {
  import opened Wrappers
  import opened Json
  import opened Text
  import opened Playback
  import Worker
  import Resources

  /** `VOICES`, the built-in voice catalogue. */
  const Voices: seq<string> := ["alba", "marius", "javert", "jean", "fantine", "cosette", "eponine", "azelma"]

  /** The voice used when a requested name is not in the catalogue. */
  const FallbackVoice: string := "alba"

  /** Seconds without a task after which the worker drops the model. */
  const IdleLimit: real := 60.0

  // ------------------------------------------------------------ intake

  /** `(text, voice_path, voice_name, ticket)` as put on the work queue. */
  datatype Task = Task(text: Json, voicePath: Json, voiceName: Json, ticket: nat)

  /** The shared state that `handle_generate` touches. */
  datatype Intake = Intake(coord: Coordinator, tasks: seq<Task>, lastActivity: real)

  /**
   What `json.loads(body)` does with the request body: a value, a
   `JSONDecodeError`, or another error (a body that is not UTF-8).
   */
  datatype Decoded = Decoded(value: Json) | NotJson | NotText

  /** The handler's answer: an error status with its reason, or a JSON reply. */
  datatype Reply = HttpError(code: nat, reason: string) | ServerError | Sent(body: Json)

  function QueuedReply(ticket: nat): (r: Json) {
    Obj(map["status" := Str("queued"), "ticket" := Num(ticket as real)])
  }

  /**
   `handle_generate`: a zero Content-Length, an undecodable body or a falsy
   `text` is refused with a 400 and changes nothing; a body that is JSON but
   not an object makes `data.get` raise, which the generic handler turns
   into a 500.  Otherwise the request takes the next ticket, exactly one
   task is queued (with `voice_name` defaulting to `"random"`), the activity
   clock is reset and the reply names the ticket.
   */
  function HandleGenerate(st: Intake, length: int, body: Decoded, now: real): (r: (Reply, Intake))
    ensures !r.0.Sent? <==> r.1 == st
    ensures length == 0 ==> r.0 == HttpError(400, "Empty body")
    ensures length != 0 && body.NotJson? ==> r.0 == HttpError(400, "Invalid JSON")
    ensures length != 0 && body.Decoded? && body.value.Obj? && !Truthy(Get(body.value.fields, "text", Null)) ==>
      r.0 == HttpError(400, "Missing text")
    ensures length != 0 && (body.NotText? || (body.Decoded? && !body.value.Obj?)) ==> r.0 == ServerError
    ensures r.0.Sent? <==>
      length != 0 && body.Decoded? && body.value.Obj? && Truthy(Get(body.value.fields, "text", Null))
    ensures r.0.Sent? ==>
      var fields := body.value.fields;
      var t := st.coord.next;
      r.0.body == QueuedReply(t) &&
      r.1.coord == Coordinator(st.coord.current, t + 1) &&
      r.1.lastActivity == now &&
      r.1.tasks == st.tasks + [Task(fields["text"], Get(fields, "voice_path", Null),
                                   Get(fields, "voice_name", Str("random")), t)]
  {
    if length == 0 then (HttpError(400, "Empty body"), st)
    else
      match body
      case NotJson => (HttpError(400, "Invalid JSON"), st)
      case NotText => (ServerError, st)
      case Decoded(data) =>
        if !data.Obj? then (ServerError, st)
        else
          var text := Get(data.fields, "text", Null);
          var voicePath := Get(data.fields, "voice_path", Null);
          var voiceName := Get(data.fields, "voice_name", Str("random"));
          if !Truthy(text) then (HttpError(400, "Missing text"), st)
          else
            var (ticket, coord) := GetTicket(st.coord);
            (Sent(QueuedReply(ticket)), Intake(coord, st.tasks + [Task(text, voicePath, voiceName, ticket)], now))
  }

  /**
   `queue.get()` in the worker: the oldest task. Taking it at time `now`
   resets the idle clock.
   */
  function TakeTask(st: Intake, now: real): (r: Option<(Task, Intake)>)
    ensures r.None? <==> st.tasks == []
    ensures r.Some? ==> [r.value.0] + r.value.1.tasks == st.tasks && r.value.1.coord == st.coord
    ensures r.Some? ==> r.value.1.lastActivity == now
  {
    if st.tasks == [] then None else Some((st.tasks[0], Intake(st.coord, st.tasks[1..], now)))
  }

  /**
   The tasks waiting in the queue carry the most recently issued tickets,
   consecutive and in queue order.
   */
  predicate IntakeInv(st: Intake) {
    |st.tasks| <= st.coord.next &&
    forall i :: 0 <= i < |st.tasks| ==> st.tasks[i].ticket == st.coord.next - |st.tasks| + i
  }

  /** Intake and the worker's `queue.get()` keep the queue's tickets consecutive. */
  lemma IntakeKeepsOrder(st: Intake, length: int, body: Decoded, now: real)
    requires IntakeInv(st)
    ensures IntakeInv(HandleGenerate(st, length, body, now).1)
    ensures TakeTask(st, now).Some? ==> IntakeInv(TakeTask(st, now).value.1)
  {
    var st' := HandleGenerate(st, length, body, now).1;
    if st' != st {
      assert |st'.tasks| == |st.tasks| + 1;
      forall i | 0 <= i < |st'.tasks|
        ensures st'.tasks[i].ticket == st'.coord.next - |st'.tasks| + i
      {
        if i < |st.tasks| {
          assert st'.tasks[i] == st.tasks[i];
        }
      }
    }
    if st.tasks != [] {
      var rest := st.tasks[1..];
      forall i | 0 <= i < |rest| ensures rest[i].ticket == st.coord.next - |rest| + i {
        assert rest[i] == st.tasks[i + 1];
      }
    }
  }

  // ---------------------------------------------------- voice resolution

  /** `" ("` starts at position `i` of `s`. */
  predicate SepAt(s: string, i: int) {
    0 <= i && i + 1 < |s| && s[i] == ' ' && s[i + 1] == '('
  }

  /** `s.split(" (")[0]`: everything before the first `" ("`. */
  function BeforeSep(s: string): (r: string)
    ensures r <= s
    ensures forall i :: 0 <= i < |r| ==> !SepAt(s, i)
    ensures r == s || SepAt(s, |r|)
  {
    if |s| < 2 then s
    else if s[0] == ' ' && s[1] == '(' then []
    else
      var rest := BeforeSep(s[1..]);
      assert forall i :: 1 <= i < |s| ==> (SepAt(s, i) <==> SepAt(s[1..], i - 1));
      [s[0]] + rest
  }

  /** A label `name (description)` whose name has no `" ("` splits back to the name. */
  lemma BeforeSepOfLabel(name: string, description: string)
    requires forall i :: 0 <= i < |name| ==> !SepAt(name + " (" + description, i)
    ensures BeforeSep(name + " (" + description) == name
  {
    var s := name + " (" + description;
    assert SepAt(s, |name|);
  }

  /**
   The voice of a task without a voice file: a falsy name or `"random"`
   takes the catalogue entry `random.choice` picked (index `pick`); another
   string is cut at `" ("` and replaced by `alba` when the rest is not in
   the catalogue; a non-string name makes `.split` raise.
   */
  function ResolveVoice(voiceName: Json, pick: nat): (r: Result<string, Json>)
    requires pick < |Voices|
    ensures r.Ok? ==> r.value in Voices
    ensures r.Err? <==> Truthy(voiceName) && !voiceName.Str?
    ensures voiceName.Str? && Truthy(voiceName) && voiceName.s != "random" ==>
      r == Ok(if BeforeSep(voiceName.s) in Voices then BeforeSep(voiceName.s) else FallbackVoice)
  {
    var name := if !Truthy(voiceName) || voiceName == Str("random") then Str(Voices[pick]) else voiceName;
    match name
    case Str(s) =>
      var clean := BeforeSep(s);
      Ok(if clean in Voices then clean else FallbackVoice)
    case _ => Err(name)
  }

  /** Catalogue names are non-empty, have no space and do not start with `r`. */
  lemma CatalogueShape(k: nat)
    requires k < |Voices|
    ensures Voices[k] != [] && Voices[k][0] != 'r'
    ensures forall i :: 0 <= i < |Voices[k]| ==> Voices[k][i] != ' '
  {
    assert forall j :: 0 <= j < |Voices| ==> Voices[j] != [] && Voices[j][0] != 'r';
    assert forall j, i :: 0 <= j < |Voices| && 0 <= i < |Voices[j]| ==> Voices[j][i] != ' ';
  }

  /** A string other than `"random"` that `BeforeSep` leaves in the catalogue resolves to that entry. */
  lemma ResolvesTo(s: string, k: nat, pick: nat)
    requires k < |Voices| && pick < |Voices|
    requires s != [] && s[0] != 'r' && BeforeSep(s) == Voices[k]
    ensures ResolveVoice(Str(s), pick) == Ok(Voices[k])
  {
    assert s != "random" by {
      assert "random"[0] == 'r';
    }
  }

  /** A catalogue name, alone or labelled `name (description)`, resolves to itself. */
  lemma CatalogueNamesResolve(k: nat, description: string, pick: nat)
    requires k < |Voices| && pick < |Voices|
    ensures ResolveVoice(Str(Voices[k]), pick) == Ok(Voices[k])
    ensures ResolveVoice(Str(Voices[k] + " (" + description), pick) == Ok(Voices[k])
  {
    var v := Voices[k];
    CatalogueShape(k);
    assert BeforeSep(v) == v;
    ResolvesTo(v, k, pick);
    var tagged := v + " (" + description;
    BeforeSepOfLabel(v, description);
    assert tagged[0] == v[0];
    ResolvesTo(tagged, k, pick);
  }

  // --------------------------------------------------------- model slot

  /** `ServiceState.model`: empty, or holding the model with a given identity. */
  datatype Slot = Unloaded | Loaded(model: nat)

  /**
   `load_model`: loads only when the slot is empty.  `attempt` is what
   `TTSModel.load_model()` yields: a model, or `None` when it raises.
   */
  function Load(s: Slot, attempt: Option<nat>): (r: Slot)
    ensures s.Loaded? ==> r == s
    ensures s.Unloaded? ==> (r.Loaded? <==> attempt.Some?)
  {
    if s.Loaded? then s
    else
      match attempt
      case Some(m) => Loaded(m)
      case None => Unloaded
  }

  /** `unload_model`. */
  function Unload(s: Slot): (r: Slot)
    ensures r.Unloaded?
  {
    Unloaded
  }

  /** Loading twice is loading once; unloading twice is unloading once. */
  lemma LoadIdempotent(s: Slot, a: Option<nat>, b: Option<nat>)
    ensures Load(s, a).Loaded? ==> Load(Load(s, a), b) == Load(s, a)
    ensures Unload(Unload(s)) == Unload(s)
  {
  }

  /**
   The worker's idle check when no task arrived: the model is dropped
   exactly when one is loaded and more than 60 s passed since the last
   activity; otherwise the slot is left as it is.
   */
  function IdleTick(s: Slot, now: real, lastActivity: real): (r: Slot)
    ensures r.Unloaded? <==> s.Unloaded? || now - lastActivity > IdleLimit
    ensures r.Loaded? ==> r == s
  {
    if s.Loaded? && now - lastActivity > IdleLimit then Unload(s) else s
  }

  /**
   Taking a task resets the idle clock: an idle poll within 60 s of the
   take keeps the model, however long ago the task was queued.
   */
  lemma TakenTaskKeepsModel(st: Intake, taken: real, s: Slot, now: real)
    requires TakeTask(st, taken).Some?
    requires now - taken <= IdleLimit
    ensures IdleTick(s, now, TakeTask(st, taken).value.1.lastActivity) == s
  {
  }

  /** `estimated_mb` for a text of `length` characters. */
  function EstimatedMb(length: nat): (r: real)
    ensures r >= 500.0
  {
    500.0 + (length as real / 1000.0 * 50.0)
  }

  /** Longer texts are estimated to need more memory. */
  lemma EstimateMonotone(a: nat, b: nat)
    requires a <= b
    ensures EstimatedMb(a) <= EstimatedMb(b)
  {
  }

  // ----------------------------------------------------- one task

  /** What the environment does while the worker handles one task. */
  datatype SaveResult = SaveOk | SaveRaises(created: bool)

  datatype Env = Env(
    manager: Resources.Manager, // the resource manager, with its latest memory status
    load: Option<nat>,          // what `TTSModel.load_model()` yields
    pick: nat,                  // the index `random.choice(VOICES)` picks
    prompt: bool,               // `get_state_for_audio_prompt` returns for a catalogue voice
    generated: bool,            // some chunk of the text was generated
    save: SaveResult)           // writing the wav

  predicate ValidEnv(env: Env) {
    env.pick < |Voices|
  }

  /**
   How `worker_loop` handles one task, given the slot before it: the new slot
   and how the task ends (the `Outcome` the playback protocol sees).  The
   memory check is `check_allocation_feasibility` of the text's estimate: a
   `False` only makes the worker sleep before going on, but a memory total
   of zero makes it raise, and the catch-all abandons the task before the
   model is loaded.  Without a voice file, a name that is not a string or a
   failing prompt computation for the catalogue voice abandons it too.
   */
  function HandleTask(s: Slot, task: Task, env: Env): (r: (Slot, Worker.Outcome))
    requires ValidEnv(env)
    ensures r.1.Saved? ==> r.0.Loaded? && task.text.Str? && NonSpace(task.text.s) != []
    ensures s.Loaded? ==> r.0 == s
    ensures Length(task.text).Some? && env.manager.status.totalMb == 0.0 ==> r == (s, Worker.Abandoned)
    ensures Length(task.text).Some? && env.manager.status.totalMb != 0.0 && s.Unloaded? ==>
      (r.0.Loaded? <==> env.load.Some?)
    ensures !Truthy(task.voicePath) && !env.prompt ==> r.1.Abandoned?
    ensures task.text.Str? && NonSpace(task.text.s) == [] ==> !r.1.Saved? && !r.1.SaveFailed?
  {
    match Length(task.text)
    case None => (s, Worker.Abandoned)
    case Some(n) =>
      match Resources.Feasible(env.manager, EstimatedMb(n))
      case Err(_) => (s, Worker.Abandoned)
      case Ok(_) =>
        var s' := Load(s, env.load);
        if s'.Unloaded? then (s', Worker.Abandoned)
        else if !Truthy(task.voicePath) && (ResolveVoice(task.voiceName, env.pick).Err? || !env.prompt) then
          (s', Worker.Abandoned)
        else if !task.text.Str? then (s', Worker.Abandoned)
        // `split_text` yields no chunk exactly for a blank text
        else if NonSpace(task.text.s) == [] || !env.generated then (s', Worker.NoAudio)
        else
          match env.save
          case SaveOk => (s', Worker.Saved)
          case SaveRaises(created) => (s', Worker.SaveFailed(created))
  }

  /**
   The memory reading only delays a task: under any two statuses whose
   totals are known, the task is handled alike, feasible or not.
   */
  lemma MemoryOnlyDelays(s: Slot, task: Task, env: Env, other: Resources.Manager)
    requires ValidEnv(env)
    requires env.manager.status.totalMb != 0.0 && other.status.totalMb != 0.0
    ensures HandleTask(s, task, env) == HandleTask(s, task, env.(manager := other))
  {
  }

  /**
   A shorter text's estimate fits whenever a longer one's does, so the
   worker never sleeps for a short text when it would not for a long one.
   */
  lemma ShorterTextFeasible(m: Resources.Manager, short: nat, long: nat)
    requires m.status.totalMb > 0.0 && short <= long
    requires Resources.Feasible(m, EstimatedMb(long)) == Ok(true)
    ensures Resources.Feasible(m, EstimatedMb(short)) == Ok(true)
  {
    EstimateMonotone(short, long);
    Resources.FeasibleMonotone(m, EstimatedMb(short), EstimatedMb(long));
  }

  /**
   A string task with a loaded model, a known memory total and a usable
   voice is never abandoned: it is played, or it ends with no audio or a
   failed save.
   */
  lemma LoadedTaskNotAbandoned(s: Slot, task: Task, env: Env)
    requires ValidEnv(env) && task.text.Str? && env.manager.status.totalMb != 0.0
    requires s.Loaded? || env.load.Some?
    requires Truthy(task.voicePath) || ((!Truthy(task.voiceName) || task.voiceName.Str?) && env.prompt)
    ensures !HandleTask(s, task, env).1.Abandoned?
  {
  }
}

=== FILE: text.dfy ===
/**
 Python string primitives the chunker relies on: whitespace, `str.strip()`,
 `str.split()`, `str.split(' ')` and `" ".join(...)`, each stated against the
 reference function `NonSpace` (the string with every whitespace character
 removed), so that later proofs can follow the non-space content of a text.
 */
module Text {

  /** The characters Python's `str.isspace()` (and the regex class `\s`) accept. */
  predicate IsSpace(c: char) {
    || ('\U{9}' <= c <= '\U{d}')
    || ('\U{1c}' <= c <= '\U{20}')
    || c == '\U{85}' || c == '\U{a0}' || c == '\U{1680}'
    || ('\U{2000}' <= c <= '\U{200a}')
    || c == '\U{2028}' || c == '\U{2029}' || c == '\U{202f}'
    || c == '\U{205f}' || c == '\U{3000}'
  }

  /** No whitespace character anywhere in `s`. */
  predicate NoSpace(s: string) {
    forall i :: 0 <= i < |s| ==> !IsSpace(s[i])
  }

  /** The reference view of a text: its non-whitespace characters, in order. */
  function NonSpace(s: string): (r: string)
    ensures |r| <= |s|
  {
    if s == [] then []
    else (if IsSpace(s[0]) then [] else [s[0]]) + NonSpace(s[1..])
  }

  lemma {:induction false} NonSpaceAppend(a: string, b: string)
    ensures NonSpace(a + b) == NonSpace(a) + NonSpace(b)
  {
    if a != [] {
      assert (a + b)[0] == a[0];
      assert (a + b)[1..] == a[1..] + b;
      NonSpaceAppend(a[1..], b);
      calc {
        NonSpace(a + b);
        (if IsSpace(a[0]) then [] else [a[0]]) + NonSpace(a[1..] + b);
        (if IsSpace(a[0]) then [] else [a[0]]) + (NonSpace(a[1..]) + NonSpace(b));
        ((if IsSpace(a[0]) then [] else [a[0]]) + NonSpace(a[1..])) + NonSpace(b);
      }
    } else {
      assert a + b == b;
    }
  }

  lemma {:induction false} NonSpaceOfNoSpace(s: string)
    requires NoSpace(s)
    ensures NonSpace(s) == s
  {
    if s != [] {
      NonSpaceOfNoSpace(s[1..]);
    }
  }

  lemma {:induction false} NonSpaceOfSpaces(s: string)
    requires forall i :: 0 <= i < |s| ==> IsSpace(s[i])
    ensures NonSpace(s) == []
  {
    if s != [] {
      NonSpaceOfSpaces(s[1..]);
    }
  }

  /** The characters of the strings of `ss`, one after the other. */
  function Concat(ss: seq<string>): (r: string)
    ensures ss == [] ==> r == []
  {
    if ss == [] then [] else ss[0] + Concat(ss[1..])
  }

  lemma {:induction false} ConcatAppend(a: seq<string>, b: seq<string>)
    ensures Concat(a + b) == Concat(a) + Concat(b)
  {
    if a != [] {
      assert (a + b)[0] == a[0];
      assert (a + b)[1..] == a[1..] + b;
      ConcatAppend(a[1..], b);
      calc {
        Concat(a + b);
        a[0] + Concat(a[1..] + b);
        a[0] + (Concat(a[1..]) + Concat(b));
        (a[0] + Concat(a[1..])) + Concat(b);
      }
    } else {
      assert a + b == b;
    }
  }

  lemma {:induction false} ConcatSnoc(a: seq<string>, s: string)
    ensures Concat(a + [s]) == Concat(a) + s
  {
    ConcatAppend(a, [s]);
    assert Concat([s]) == s + Concat([]);
  }

  // ---------------------------------------------------------------- strip

  function StripStart(s: string): (r: string)
    ensures |r| <= |s| && r == s[|s| - |r|..]
    ensures r == [] || !IsSpace(r[0])
    ensures NonSpace(r) == NonSpace(s)
  {
    if s != [] && IsSpace(s[0]) then StripStart(s[1..]) else s
  }

  function StripEnd(s: string): (r: string)
    ensures |r| <= |s| && r == s[..|r|]
    ensures r == [] || !IsSpace(r[|r| - 1])
    ensures NonSpace(r) == NonSpace(s)
  {
    if s != [] && IsSpace(s[|s| - 1]) then
      var r := StripEnd(s[..|s| - 1]);
      assert s == s[..|s| - 1] + [s[|s| - 1]];
      NonSpaceAppend(s[..|s| - 1], [s[|s| - 1]]);
      r
    else s
  }

  /** Python's `s.strip()`: leading and trailing whitespace removed. */
  function Strip(s: string): (r: string)
    ensures |r| <= |s|
    ensures r != [] ==> !IsSpace(r[0]) && !IsSpace(r[|r| - 1])
    ensures NonSpace(r) == NonSpace(s)
    ensures r == [] <==> NonSpace(s) == []
    ensures s != [] && IsSpace(s[|s| - 1]) ==> |r| < |s|
  {
    var r := StripEnd(StripStart(s));
    assert r != [] ==> NonSpace(r) == [r[0]] + NonSpace(r[1..]);
    r
  }

  // ---------------------------------------------------------------- split / join

  /** Number of leading non-space characters of `s`. */
  function WordLength(s: string): (n: nat)
    ensures n <= |s|
    ensures forall i :: 0 <= i < n ==> !IsSpace(s[i])
    ensures n < |s| ==> IsSpace(s[n])
  {
    if s == [] || IsSpace(s[0]) then 0 else 1 + WordLength(s[1..])
  }

  /** Python's `s.split()`: the maximal runs of non-whitespace characters. */
  function Words(s: string): (ws: seq<string>)
    ensures forall i :: 0 <= i < |ws| ==> ws[i] != [] && NoSpace(ws[i])
    ensures Concat(ws) == NonSpace(s)
    decreases |s|
  {
    if s == [] then []
    else if IsSpace(s[0]) then Words(s[1..])
    else
      var n := WordLength(s);
      var rest := Words(s[n..]);
      assert s == s[..n] + s[n..];
      NonSpaceAppend(s[..n], s[n..]);
      NonSpaceOfNoSpace(s[..n]);
      [s[..n]] + rest
  }

  /** Python's `" ".join(ws)`. */
  function Join(ws: seq<string>): string {
    if ws == [] then []
    else if |ws| == 1 then ws[0]
    else ws[0] + " " + Join(ws[1..])
  }

  /**
   A normalised text, as `" ".join(text.split())` produces it: the only
   whitespace is a single ASCII space standing between two non-space characters.
   */
  predicate Normal(s: string) {
    forall i :: 0 <= i < |s| && IsSpace(s[i]) ==>
      s[i] == ' ' && 0 < i < |s| - 1 && !IsSpace(s[i + 1]) && !IsSpace(s[i - 1])
  }

  /** Joining a word in front of a normalised text keeps it normalised. */
  lemma {:induction false} NormalCons(w: string, t: string)
    requires w != [] && NoSpace(w)
    requires Normal(t) && t != [] && !IsSpace(t[0])
    ensures Normal(w + " " + t)
  {
    var j := w + " " + t;
    forall i | 0 <= i < |j| && IsSpace(j[i])
      ensures j[i] == ' ' && 0 < i < |j| - 1 && !IsSpace(j[i + 1]) && !IsSpace(j[i - 1])
    {
      if i == |w| {
        assert j[i + 1] == t[0];
        assert j[i - 1] == w[|w| - 1];
      } else if i > |w| {
        var k := i - |w| - 1;
        assert j[i] == t[k];
        assert j[i + 1] == t[k + 1];
        if k > 0 {
          assert j[i - 1] == t[k - 1];
        }
      }
    }
  }

  lemma {:induction false} JoinOfWords(ws: seq<string>)
    requires forall i :: 0 <= i < |ws| ==> ws[i] != [] && NoSpace(ws[i])
    ensures Normal(Join(ws))
    ensures NonSpace(Join(ws)) == Concat(ws)
    ensures ws != [] ==> Join(ws) != [] && !IsSpace(Join(ws)[0])
  {
    if |ws| == 1 {
      NonSpaceOfNoSpace(ws[0]);
      assert ws[1..] == [];
      assert Concat(ws) == ws[0] + Concat(ws[1..]);
      assert Normal(ws[0]);
    } else if |ws| > 1 {
      var w, t := ws[0], Join(ws[1..]);
      JoinOfWords(ws[1..]);
      assert Join(ws) == w + " " + t;
      NormalCons(w, t);
      NonSpaceAppend(w + " ", t);
      NonSpaceAppend(w, " ");
      NonSpaceOfNoSpace(w);
      assert NonSpace(" ") == [];
      assert (w + " " + t)[0] == w[0];
    }
  }

  /** `" ".join(text.split())`: whitespace runs collapsed and the ends trimmed. */
  function Normalize(s: string): (r: string)
    ensures Normal(r)
    ensures NonSpace(r) == NonSpace(s)
    ensures r == [] <==> NonSpace(s) == []
  {
    var ws := Words(s);
    JoinOfWords(ws);
    Join(ws)
  }

  /** Index of the first ASCII space in `s`, or `|s|` when there is none. */
  function SpaceIndex(s: string): (i: nat)
    ensures i <= |s|
    ensures forall k :: 0 <= k < i ==> s[k] != ' '
    ensures i < |s| ==> s[i] == ' '
  {
    if s == [] || s[0] == ' ' then 0 else 1 + SpaceIndex(s[1..])
  }

  /** Python's `s.split(' ')`: cut at every ASCII space, empty parts kept. */
  function SplitOnSpace(s: string): (parts: seq<string>)
    ensures |parts| >= 1
    ensures Join(parts) == s
    ensures forall i :: 0 <= i < |parts| ==> ' ' !in parts[i]
    decreases |s|
  {
    var i := SpaceIndex(s);
    if i == |s| then [s]
    else
      var rest := SplitOnSpace(s[i + 1..]);
      assert s == s[..i] + " " + s[i + 1..];
      [s[..i]] + rest
  }

  /** Removing the joining spaces of a `" ".join` leaves the non-space content of the parts. */
  lemma {:induction false} NonSpaceOfJoin(ws: seq<string>)
    ensures NonSpace(Join(ws)) == NonSpace(Concat(ws))
  {
    if |ws| == 1 {
      assert ws[1..] == [];
      assert Join(ws) == ws[0];
      assert Concat(ws) == ws[0] + Concat(ws[1..]) == ws[0];
    } else if |ws| > 1 {
      var a, t := ws[0], ws[1..];
      assert Join(ws) == (a + " ") + Join(t);
      assert Concat(ws) == a + Concat(t);
      NonSpaceOfJoin(t);
      NonSpaceAppend(a + " ", Join(t));
      NonSpaceAppend(a, " ");
      assert NonSpace(" ") == [] by {
        assert " "[1..] == [];
      }
      assert NonSpace(a + " ") == NonSpace(a);
      NonSpaceAppend(a, Concat(t));
    }
  }

  /** The part of a normalised text before its first space holds no whitespace. */
  lemma {:induction false} NormalHead(s: string, i: nat)
    requires Normal(s) && i == SpaceIndex(s)
    ensures NoSpace(s[..i])
  {
    forall k | 0 <= k < i ensures !IsSpace(s[..i][k]) {
      assert s[..i][k] == s[k];
    }
  }

  /** The part of a normalised text after one of its spaces is normalised and starts with a non-space. */
  lemma {:induction false} NormalTail(s: string, i: nat)
    requires Normal(s) && i < |s| && IsSpace(s[i])
    ensures Normal(s[i + 1..]) && s[i + 1..] != [] && !IsSpace(s[i + 1..][0])
  {
    var tail := s[i + 1..];
    forall k | 0 <= k < |tail| && IsSpace(tail[k])
      ensures tail[k] == ' ' && 0 < k < |tail| - 1 && !IsSpace(tail[k + 1]) && !IsSpace(tail[k - 1])
    {
      assert tail[k] == s[k + i + 1];
      if k == 0 {
        assert false;
      }
      assert tail[k - 1] == s[k + i];
      assert tail[k + 1] == s[k + i + 2];
    }
  }

  lemma {:induction false} SplitTailContent(s: string, i: nat)
    requires i < |s| && s[i] == ' '
    ensures NonSpace(s) == NonSpace(s[..i]) + NonSpace(s[i + 1..])
  {
    var a, b, sp := s[..i], s[i + 1..], " ";
    assert s[..i + 1] == a + sp;
    assert s == s[..i + 1] + b;
    NonSpaceAppend(s[..i + 1], b);
    NonSpaceAppend(a, sp);
    assert NonSpace(sp) == [] by {
      assert IsSpace(sp[0]);
      assert sp[1..] == [];
    }
    assert NonSpace(a) + NonSpace(sp) == NonSpace(a);
  }

  /** In a normalised, non-empty text, `split(' ')` yields non-empty words free of whitespace. */
  lemma SplitOnSpaceOfNormal(s: string)
    requires Normal(s) && s != []
    ensures forall i :: 0 <= i < |SplitOnSpace(s)| ==>
      SplitOnSpace(s)[i] != [] && NoSpace(SplitOnSpace(s)[i])
    ensures Concat(SplitOnSpace(s)) == NonSpace(s)
  {
    SplitOnSpaceWords(s);
    SplitOnSpaceContent(s);
  }

  lemma {:induction false} SplitOnSpaceWords(s: string)
    requires Normal(s) && s != []
    ensures forall i :: 0 <= i < |SplitOnSpace(s)| ==>
      SplitOnSpace(s)[i] != [] && NoSpace(SplitOnSpace(s)[i])
    decreases |s|
  {
    var parts := SplitOnSpace(s);
    var i := SpaceIndex(s);
    NormalHead(s, i);
    if i == |s| {
      assert s[..i] == s;
      assert parts == [s];
    } else {
      var head, tail := s[..i], s[i + 1..];
      NormalTail(s, i);
      assert i > 0;
      var rest := SplitOnSpace(tail);
      SplitOnSpaceWords(tail);
      assert parts == [head] + rest;
      forall k | 0 <= k < |parts| ensures parts[k] != [] && NoSpace(parts[k]) {
        if k > 0 {
          assert parts[k] == rest[k - 1];
        }
      }
    }
  }

  lemma {:induction false} SplitOnSpaceContent(s: string)
    requires Normal(s) && s != []
    ensures Concat(SplitOnSpace(s)) == NonSpace(s)
    decreases |s|
  {
    var parts := SplitOnSpace(s);
    var i := SpaceIndex(s);
    NormalHead(s, i);
    if i == |s| {
      assert s[..i] == s;
      NonSpaceOfNoSpace(s);
      assert parts == [s];
      assert parts[1..] == [];
      assert Concat(parts) == s + Concat(parts[1..]) == s;
    } else {
      var head, tail := s[..i], s[i + 1..];
      NormalTail(s, i);
      var rest := SplitOnSpace(tail);
      SplitOnSpaceContent(tail);
      assert parts == [head] + rest;
      assert parts[1..] == rest;
      NonSpaceOfNoSpace(head);
      assert Concat(parts) == head + Concat(rest);
      SplitTailContent(s, i);
    }
  }
}

=== FILE: ticket_queue.dfy ===
/**
 The cross-process FIFO queue of system_lock.py: every process that wants the
 inference lock drops a ticket file named after the current nanosecond clock
 into a shared directory, removes the tickets of dead or long-gone processes,
 and waits until its own ticket sorts first.
 */
module TicketQueue {
  import opened Wrappers
  import opened Posix
  import opened Lex
  import opened Decimal

  /** `LOCK_TIMEOUT_S`, the default patience of `inference_lock`. */
  const LockTimeout: real := 120.0
  /** `STALE_TICKET_AGE_S`. */
  const StaleTicketAge: real := 300.0
  const TicketSuffix: string := ".ticket"
  /** The width of the zero-padded timestamp at the head of a ticket name. */
  const StampWidth: nat := 20

  /**
   What reading a ticket file yields: its pid and enqueue time (missing keys
   read as 0, as `info.get(key, 0)` does), or `Garbled` when the text is not a
   JSON object with numeric fields, which makes the cleanup loop fall into its
   `except` branch.
   */
  datatype Ticket = Garbled | Ticket(pid: int, enqueueTime: real)

  type QueueDir = seq<Entry<Ticket>>

  /** `f"{time.time_ns():020d}-{self.pid}.ticket"`. */
  function TicketName(timeNs: nat, pid: nat): (name: string)
    ensures EndsWith(name, TicketSuffix)
  {
    var stamp, tail := ZeroPad(timeNs, StampWidth), PidTail(pid);
    EndsWithAfter(stamp, tail, TicketSuffix);
    stamp + tail
  }

  /** What follows the timestamp in a ticket name: `-<pid>.ticket`. */
  function PidTail(pid: nat): (tail: string)
    ensures EndsWith(tail, TicketSuffix)
  {
    var tail := "-" + Show(pid) + TicketSuffix;
    assert tail[|tail| - |TicketSuffix|..] == TicketSuffix;
    tail
  }

  /**
   While the clock stays below `10^20` ns, ticket names sort in the order of
   their timestamps, whatever the pids.
   */
  lemma TicketNameOrder(t1: nat, pid1: nat, t2: nat, pid2: nat)
    requires t1 < Pow10(StampWidth) && t2 < Pow10(StampWidth) && t1 != t2
    ensures Less(TicketName(t1, pid1), TicketName(t2, pid2)) <==> t1 < t2
  {
    var a, b := ZeroPad(t1, StampWidth), ZeroPad(t2, StampWidth);
    ZeroPadFacts(t1, StampWidth);
    ZeroPadFacts(t2, StampWidth);
    PadOrder(t1, t2, StampWidth);
    var x, y := PidTail(pid1), PidTail(pid2);
    if t1 < t2 {
      LessExtend(a, b, x, y);
    } else {
      PadOrder(t2, t1, StampWidth);
      LessExtend(b, a, y, x);
      Asymmetric(b + y, a + x);
    }
  }

  /**
   `_create_ticket`: the file is written under its name (replacing a file of
   that name, as `write_text` does); the rest of the directory is untouched.
   */
  function CreateTicket(d: QueueDir, name: string, pid: int, now: real): (r: QueueDir)
    ensures Entry(name, Ticket(pid, now)) in r
    ensures forall e :: e in r && e.name == name ==> e.content == Ticket(pid, now)
    ensures forall e :: e in r && e.name != name <==> e in d && e.name != name
    ensures UniqueNames(d) ==> UniqueNames(r)
  {
    Unlink(d, name) + [Entry(name, Ticket(pid, now))]
  }

  /** `_remove_ticket`. */
  function RemoveTicket(d: QueueDir, name: string): (r: QueueDir)
    ensures forall e :: e in r <==> e in d && e.name != name
  {
    Unlink(d, name)
  }

  predicate IsTicketName(name: string) {
    EndsWith(name, TicketSuffix)
  }

  /**
   The test `_cleanup_stale_tickets` applies to a ticket file: unreadable, or
   its process is dead, or it is more than `STALE_TICKET_AGE_S` old.  Files
   that are not tickets are never touched.
   */
  predicate IsStale(e: Entry<Ticket>, now: real, kill: int -> KillResult) {
    IsTicketName(e.name) &&
    match e.content
    case Garbled => true
    case Ticket(pid, t) => !Alive(pid, kill) || now - t > StaleTicketAge
  }

  /** `_cleanup_stale_tickets`: deletes exactly the stale tickets and nothing else. */
  function CleanupStaleTickets(d: QueueDir, now: real, kill: int -> KillResult): (r: QueueDir)
    ensures forall e :: e in r <==> e in d && !IsStale(e, now, kill)
    ensures UniqueNames(d) ==> UniqueNames(r)
  {
    Filter(d, (e: Entry<Ticket>) => !IsStale(e, now, kill))
  }

  /** A ticket whose pid is beyond what `os.kill` accepts is removed, however fresh it is. */
  lemma OverflowTicketPurged(d: QueueDir, now: real, kill: int -> KillResult, e: Entry<Ticket>)
    requires e in d && IsTicketName(e.name) && e.content.Ticket? && e.content.pid > MaxPid
    ensures e !in CleanupStaleTickets(d, now, kill)
  {
  }

  /** The names in a listing that end in `.ticket`, in listing order. */
  function TicketNames(d: QueueDir): (r: seq<string>)
    ensures forall n :: n in r <==> IsTicketName(n) && exists e :: e in d && e.name == n
    ensures UniqueNames(d) ==> Distinct(r)
  {
    if d == [] then []
    else
      var rest := TicketNames(d[1..]);
      assert forall e :: e in d <==> e == d[0] || e in d[1..];
      if IsTicketName(d[0].name) then
        assert UniqueNames(d) ==> d[0].name !in rest;
        [d[0].name] + rest
      else rest
  }

  /** `_sorted_tickets`: the ticket names, sorted. */
  function SortedTickets(d: QueueDir): (r: seq<string>)
    ensures Sorted(r) && multiset(r) == multiset(TicketNames(d))
    ensures forall n :: n in r <==> n in TicketNames(d)
    ensures UniqueNames(d) ==> forall i, j :: 0 <= i < j < |r| ==> Less(r[i], r[j])
  {
    var names := TicketNames(d);
    var r := Sort(names);
    assert forall n :: n in r <==> n in multiset(names);
    assert UniqueNames(d) ==> forall i, j :: 0 <= i < j < |r| ==> Less(r[i], r[j]) by {
      if UniqueNames(d) {
        DistinctPermutation(names, r);
        StrictlySorted(r);
      }
    }
    r
  }

  /** `list.index`: the first position holding `x`. */
  function IndexOf(s: seq<string>, x: string): (r: Option<nat>)
    ensures r.None? <==> x !in s
    ensures r.Some? ==> r.value < |s| && s[r.value] == x && x !in s[..r.value]
  {
    if s == [] then None
    else if s[0] == x then Some(0)
    else
      match IndexOf(s[1..], x)
      case None => None
      case Some(i) =>
        assert s[..i + 1] == [s[0]] + s[1..][..i];
        Some(i + 1)
  }

  /**
   `_our_position`: the 1-based place of our ticket among the sorted tickets
   and their number, or place 0 when our ticket is absent.  The place counts
   exactly the tickets that sort before ours.
   */
  function OurPosition(d: QueueDir, name: string): (r: (nat, nat))
    requires UniqueNames(d)
    ensures r.1 == |TicketNames(d)|
    ensures r.0 == 0 <==> name !in TicketNames(d)
    ensures r.0 > 0 ==> r.0 <= r.1
    ensures r.0 > 0 ==> forall i :: 0 <= i < r.1 ==>
      (i < r.0 - 1 <==> Less(SortedTickets(d)[i], name))
  {
    var tickets := SortedTickets(d);
    match IndexOf(tickets, name)
    case None => (0, |tickets|)
    case Some(i) =>
      assert forall k :: 0 <= k < |tickets| ==> (k < i <==> Less(tickets[k], name)) by {
        forall k | 0 <= k < |tickets| ensures k < i <==> Less(tickets[k], name) {
          if k == i {
            Irreflexive(name);
          } else if k > i {
            Asymmetric(name, tickets[k]);
          }
        }
      }
      (i + 1, |tickets|)
  }

  /**
   The test that ends phase 1 of `inference_lock`, stated over the queue
   rather than the sorted list: no tickets at all, or ours is present and
   sorts before every other one.
   */
  predicate Leads(d: QueueDir, name: string) {
    var names := TicketNames(d);
    names == [] || (name in names && forall n :: n in names ==> LessEq(name, n))
  }

  /** What one round of the phase-1 loop decides. */
  datatype Decision = Proceed | TimeOut | Wait(position: nat, total: nat)

  /**
   One round of phase 1: clean stale tickets (clock reading `now`), list the
   sorted tickets, break out when the list is empty or starts with ours,
   otherwise raise `TimeoutError` once more than `timeout` seconds have passed
   since `start` (clock reading `clock`), otherwise report our position and
   sleep.
   */
  function Poll(d: QueueDir, name: string, now: real, clock: real, start: real, timeout: real,
                kill: int -> KillResult): (r: Decision)
    requires UniqueNames(d)
    ensures r.Proceed? <==> Leads(CleanupStaleTickets(d, now, kill), name)
    ensures r.TimeOut? <==> !Leads(CleanupStaleTickets(d, now, kill), name) && clock - start > timeout
    ensures r.Wait? ==> r.total == |TicketNames(CleanupStaleTickets(d, now, kill))|
  {
    var cleaned := CleanupStaleTickets(d, now, kill);
    var tickets := SortedTickets(cleaned);
    LeadsIsFirst(cleaned, name);
    if tickets == [] || tickets[0] == name then Proceed
    else if clock - start > timeout then TimeOut
    else
      var (pos, total) := OurPosition(cleaned, name);
      Wait(pos, total)
  }

  /** Our ticket heads the sorted list exactly when it leads the queue. */
  lemma LeadsIsFirst(d: QueueDir, name: string)
    requires UniqueNames(d)
    ensures (SortedTickets(d) == [] || SortedTickets(d)[0] == name) <==> Leads(d, name)
  {
    var tickets := SortedTickets(d);
    var names := TicketNames(d);
    assert |tickets| == |names|;
    if tickets != [] && tickets[0] == name {
      forall n | n in names ensures LessEq(name, n) {
        assert n in tickets;
        var k :| 0 <= k < |tickets| && tickets[k] == n;
        if k > 0 {
          assert Less(tickets[0], tickets[k]);
        }
      }
    }
    if Leads(d, name) && tickets != [] {
      assert name in tickets;
      var k :| 0 <= k < |tickets| && tickets[k] == name;
      if k > 0 {
        assert Less(tickets[0], tickets[k]);
        assert tickets[0] in names;
        assert LessEq(name, tickets[0]);
        if name == tickets[0] {
          Irreflexive(name);
        } else {
          Asymmetric(name, tickets[0]);
        }
      }
    }
  }

  // ------------------------------------------------------------ the session

  /** The queue as one poll finds it, with the two clock readings that poll takes. */
  datatype Round = Round(queue: QueueDir, now: real, clock: real)

  datatype LockOutcome =
    | Completed      // the caller's block ran and returned
    | BodyFailed     // the caller's block raised
    | TimedOut       // `TimeoutError` from phase 1
    | Interrupted    // an exception escaped phase 1 before it decided

  predicate Acquired(o: LockOutcome) {
    o.Completed? || o.BodyFailed?
  }

  /** The decision of the `k`-th poll. */
  function PollAt(rounds: seq<Round>, k: nat, name: string, start: real, timeout: real,
                  kill: int -> KillResult): Decision
    requires k < |rounds| && UniqueNames(rounds[k].queue)
  {
    Poll(rounds[k].queue, name, rounds[k].now, rounds[k].clock, start, timeout, kill)
  }

  predicate AllUnique(rounds: seq<Round>) {
    forall j :: 0 <= j < |rounds| ==> UniqueNames(rounds[j].queue)
  }

  /** The first `k` polls all decided to keep waiting. */
  predicate WaitedThrough(rounds: seq<Round>, k: nat, name: string, start: real, timeout: real,
                          kill: int -> KillResult)
    requires k <= |rounds| && AllUnique(rounds)
  {
    forall j :: 0 <= j < k ==> PollAt(rounds, j, name, start, timeout, kill).Wait?
  }

  /**
   Phase 1 of `inference_lock`: poll round after round until a poll decides.
   `stop` is the round that decided, or `|rounds|` when every poll said to
   wait and the loop was cut short (the polls are finitely many here).
   */
  method WaitForTurn(name: string, rounds: seq<Round>, start: real, timeout: real,
                     kill: int -> KillResult)
    returns (stop: nat)
    requires AllUnique(rounds)
    ensures stop <= |rounds|
    ensures WaitedThrough(rounds, stop, name, start, timeout, kill)
    ensures stop < |rounds| ==> !PollAt(rounds, stop, name, start, timeout, kill).Wait?
  {
    stop := 0;
    while stop < |rounds|
      invariant 0 <= stop <= |rounds|
      invariant WaitedThrough(rounds, stop, name, start, timeout, kill)
    {
      if !PollAt(rounds, stop, name, start, timeout, kill).Wait? {
        return;
      }
      stop := stop + 1;
    }
  }

  /**
   `inference_lock`: phase 1, then the file lock, the caller's block and the
   `finally` clause.  Whatever the outcome, our ticket is gone from the queue
   at exit and the lock is no longer held: it was released exactly when it
   had been acquired, which happens only after a poll that found our ticket
   leading the queue (`Poll` says when); a time-out comes only from a poll
   that found it not leading after the time was up.
   */
  method InferenceLock(name: string, rounds: seq<Round>, start: real, timeout: real,
                       kill: int -> KillResult, bodyRaises: bool, atExit: QueueDir)
    returns (outcome: LockOutcome, released: bool, queueAfter: QueueDir)
    requires AllUnique(rounds)
    ensures forall e :: e in queueAfter <==> e in atExit && e.name != name
    ensures released <==> Acquired(outcome)
    ensures Acquired(outcome) ==> bodyRaises == outcome.BodyFailed?
    ensures Acquired(outcome) ==>
      (exists k :: 0 <= k < |rounds| && WaitedThrough(rounds, k, name, start, timeout, kill) &&
         PollAt(rounds, k, name, start, timeout, kill).Proceed?)
    ensures outcome.TimedOut? ==>
      (exists k :: 0 <= k < |rounds| && WaitedThrough(rounds, k, name, start, timeout, kill) &&
         PollAt(rounds, k, name, start, timeout, kill).TimeOut?)
    ensures outcome.Interrupted? ==> WaitedThrough(rounds, |rounds|, name, start, timeout, kill)
  {
    var stop := WaitForTurn(name, rounds, start, timeout, kill);
    var acquired := false;
    if stop == |rounds| {
      outcome := Interrupted;
    } else if PollAt(rounds, stop, name, start, timeout, kill).Proceed? {
      acquired := true;
      outcome := if bodyRaises then BodyFailed else Completed;
    } else {
      outcome := TimedOut;
    }
    // finally: release the file lock if we took it, then drop our ticket
    released := acquired;
    queueAfter := RemoveTicket(atExit, name);
  }
}

=== FILE: worker.dfy ===
/**
 How `worker_loop` and the `play_audio` threads of service.py drive the
 playback coordinator, as a transition system.  A state records the
 coordinator, the tickets of the tasks still in the work queue, the turns
 of the tasks already processed (waiting for their turn or playing), and
 the temporary audio files on disk, named by ticket.

 `NextAsWritten` follows the code: a task that produces no audio or whose
 file cannot be saved calls `finish_turn` at once, whoever holds the turn,
 and a task abandoned before generation (the model failed to load, or the
 catch-all caught an error) never calls it.  `Next` is the corrected
 protocol: every processed task takes its turn in order, silently when it
 has no audio, and a file whose save failed is removed.
 */
module Worker {
  import opened Wrappers
  import opened Playback

  /** A processed task's turn; `audible` when it has a temporary file to play. */
  datatype Turn = Waiting(audible: bool) | Playing(audible: bool)

  /** How the worker's processing of one task ends. */
  datatype Outcome =
    | Abandoned                 // the model did not load, or the catch-all caught an error
    | NoAudio                   // every chunk failed to generate (or there were none)
    | SaveFailed(created: bool) // writing the wav raised; `created` if the temporary file exists
    | Saved                     // the wav was written and a playback thread started

  datatype State = State(coord: Coordinator, queue: seq<nat>, turns: map<nat, Turn>, files: set<nat>)

  datatype Step =
    | Enqueue             // `handle_generate` takes a ticket and queues the task
    | Take(o: Outcome)    // the worker takes the oldest task and processes it
    | Start(t: nat)       // `wait_for_turn(t)` returns in a playback thread
    | Finish(t: nat)      // the playback thread's `finally` clause

  const Init: State := State(Fresh, [], map[], {})

  /** The steps both versions share: intake and the playback threads. */
  function Common(s: State, step: Step): (r: Option<State>)
    requires !step.Take?
  {
    match step
    case Enqueue =>
      var (t, c) := GetTicket(s.coord);
      Some(s.(coord := c, queue := s.queue + [t]))
    case Start(t) =>
      if t in s.turns && s.turns[t].Waiting? && MayProceed(s.coord, t) then
        Some(s.(turns := s.turns[t := Playing(s.turns[t].audible)]))
      else None
    case Finish(t) =>
      // the `finally` of `play_audio` calls `finish_turn` whoever holds the turn
      if t in s.turns && s.turns[t].Playing? then
        Some(s.(coord := FinishTurn(s.coord), turns := s.turns - {t}, files := s.files - {t}))
      else None
  }

  /** The worker's handling of the oldest task, as service.py does it. */
  function ProcessAsWritten(s: State, o: Outcome): (r: Option<State>)
  {
    if s.queue == [] then None
    else
      var t, rest := s.queue[0], s.queue[1..];
      match o
      case Abandoned => Some(s.(queue := rest))
      case NoAudio => Some(s.(queue := rest, coord := FinishTurn(s.coord)))
      case SaveFailed(created) =>
        Some(s.(queue := rest, coord := FinishTurn(s.coord),
                files := if created then s.files + {t} else s.files))
      case Saved => Some(s.(queue := rest, turns := s.turns[t := Waiting(true)], files := s.files + {t}))
  }

  /** The corrected handling: every outcome takes its turn; only a saved file is kept. */
  function Process(s: State, o: Outcome): (r: Option<State>)
  {
    if s.queue == [] then None
    else
      var t, rest := s.queue[0], s.queue[1..];
      Some(s.(queue := rest, turns := s.turns[t := Waiting(o.Saved?)],
              files := if o.Saved? then s.files + {t} else s.files))
  }

  function NextAsWritten(s: State, step: Step): (r: Option<State>) {
    if step.Take? then ProcessAsWritten(s, step.o) else Common(s, step)
  }

  function Next(s: State, step: Step): (r: Option<State>) {
    if step.Take? then Process(s, step.o) else Common(s, step)
  }

  /** Running a sequence of steps of the corrected protocol; `None` once a step is not enabled. */
  function Run(s: State, steps: seq<Step>): (r: Option<State>)
    decreases |steps|
  {
    if steps == [] then Some(s)
    else
      match Next(s, steps[0])
      case None => None
      case Some(s') => Run(s', steps[1..])
  }

  /** At most one task is playing. */
  ghost predicate Exclusive(s: State) {
    forall t, u :: t in s.turns && u in s.turns && s.turns[t].Playing? && s.turns[u].Playing? ==> t == u
  }

  /**
   The tickets handed out and not yet finished are, in order, the processed
   ones `current ≤ t < p` and then the queued ones `p, p + 1, …, next - 1`;
   only the current ticket plays; a temporary file exists exactly for each
   processed task that still has audio to play.
   */
  ghost predicate Inv(s: State) {
    var p := s.coord.next - |s.queue|;
    s.coord.current <= p &&
    (forall i :: 0 <= i < |s.queue| ==> s.queue[i] == p + i) &&
    (forall t :: t in s.turns <==> s.coord.current <= t < p) &&
    (forall t :: t in s.turns && s.turns[t].Playing? ==> t == s.coord.current) &&
    (forall t :: t in s.files <==> t in s.turns && s.turns[t].audible)
  }

  lemma InitInv()
    ensures Inv(Init)
  {
  }

  lemma InvExclusive(s: State)
    requires Inv(s)
    ensures Exclusive(s)
  {
  }

  /** Every step of the corrected protocol keeps the invariant. */
  lemma StepInv(s: State, step: Step)
    requires Inv(s) && Next(s, step).Some?
    ensures Inv(Next(s, step).value)
  {
    var s' := Next(s, step).value;
    match step
    case Enqueue =>
      assert s'.queue == s.queue + [s.coord.next];
    case Take(o) =>
      var p := s.coord.next - |s.queue|;
      assert s.queue[0] == p;
      forall i | 0 <= i < |s'.queue| ensures s'.queue[i] == p + 1 + i {
        assert s'.queue[i] == s.queue[i + 1];
      }
    case Start(t) =>
    case Finish(t) =>
  }

  /** Every run of the corrected protocol from the start keeps the invariant. */
  lemma {:induction false} RunInv(s: State, steps: seq<Step>)
    requires Inv(s) && Run(s, steps).Some?
    ensures Inv(Run(s, steps).value)
    decreases |steps|
  {
    if steps != [] {
      StepInv(s, steps[0]);
      RunInv(Next(s, steps[0]).value, steps[1..]);
    }
  }

  /** Never two playbacks at once, whatever the outcomes of the tasks and the interleaving. */
  lemma Safety(steps: seq<Step>)
    requires Run(Init, steps).Some?
    ensures Exclusive(Run(Init, steps).value)
  {
    InitInv();
    RunInv(Init, steps);
    InvExclusive(Run(Init, steps).value);
  }

  /** While some ticket is unfinished, the worker or a playback thread can move. */
  lemma Progress(s: State)
    requires Inv(s) && s.coord.current < s.coord.next
    ensures exists step: Step :: !step.Enqueue? && Next(s, step).Some?
  {
    var c := s.coord.current;
    if s.queue != [] {
      assert Next(s, Take(Saved)).Some?;
    } else if s.turns[c].Waiting? {
      assert Next(s, Start(c)).Some?;
    } else {
      assert Next(s, Finish(c)).Some?;
    }
  }

  /** Once every ticket is finished no task is pending and no temporary file is left. */
  lemma Quiescent(s: State)
    requires Inv(s) && s.coord.current == s.coord.next
    ensures s.queue == [] && s.turns == map[] && s.files == {}
  {
    assert s.turns.Keys == {};
  }

  // ------------------------------------------------- the code as written

  /** Tickets 0 and 1 both playing, with ticket 2's turn already passed. */
  const TwoPlaying: State := State(Coordinator(1, 3), [], map[0 := Playing(true), 1 := Playing(true)], {0, 1})

  /**
   Two playbacks at once: tickets 0 and 1 are saved, 0 starts playing,
   ticket 2 produces no audio and its `finish_turn` hands the turn to 1
   while 0 is still playing.
   */
  lemma AsWrittenPlaysTwoAtOnce()
    ensures
      var s1 := NextAsWritten(Init, Enqueue).value;
      var s2 := NextAsWritten(s1, Enqueue).value;
      var s3 := NextAsWritten(s2, Enqueue).value;
      var s4 := NextAsWritten(s3, Take(Saved)).value;
      var s5 := NextAsWritten(s4, Take(Saved)).value;
      var s6 := NextAsWritten(s5, Start(0)).value;
      var s7 := NextAsWritten(s6, Take(NoAudio)).value;
      NextAsWritten(s7, Start(1)) == Some(TwoPlaying) && !Exclusive(TwoPlaying)
  {
    var s1 := NextAsWritten(Init, Enqueue).value;
    assert s1.queue == [0] && s1.coord == Coordinator(0, 1);
    var s2 := NextAsWritten(s1, Enqueue).value;
    assert s2.queue == [0, 1];
    var s3 := NextAsWritten(s2, Enqueue).value;
    assert s3.queue == [0, 1, 2] && s3.coord == Coordinator(0, 3);
    var s4 := NextAsWritten(s3, Take(Saved)).value;
    assert s4.queue == [1, 2] && s4.turns == map[0 := Waiting(true)];
    var s5 := NextAsWritten(s4, Take(Saved)).value;
    assert s5.queue == [2] && s5.turns == map[0 := Waiting(true), 1 := Waiting(true)];
    var s6 := NextAsWritten(s5, Start(0)).value;
    assert s6.turns == map[0 := Playing(true), 1 := Waiting(true)];
    var s7 := NextAsWritten(s6, Take(NoAudio)).value;
    assert s7.coord == Coordinator(1, 3) && s7.turns == s6.turns;
    var s8 := NextAsWritten(s7, Start(1)).value;
    assert s8.turns == map[0 := Playing(true), 1 := Playing(true)];
    assert s8.queue == [] && s8.files == {0, 1} && s8.coord == Coordinator(1, 3);
    assert s8 == TwoPlaying;
    assert TwoPlaying.turns[0].Playing? && TwoPlaying.turns[1].Playing?;
  }

  /**
   After the overlap, both playbacks finish: each `finally` passes the turn
   on whoever holds it and removes its file, so the turn ends past every
   ticket with nothing left on disk.
   */
  lemma AsWrittenOverlapDrains()
    ensures
      var s9 := NextAsWritten(TwoPlaying, Finish(0));
      s9.Some? && s9.value.coord == Coordinator(2, 3) &&
      var s10 := NextAsWritten(s9.value, Finish(1));
      s10 == Some(State(Coordinator(3, 3), [], map[], {}))
  {
    var s9 := NextAsWritten(TwoPlaying, Finish(0)).value;
    assert s9.turns == map[1 := Playing(true)] && s9.files == {1};
    var s10 := NextAsWritten(s9, Finish(1)).value;
    assert s10.turns == map[] && s10.files == {} && s10.queue == [];
  }

  /**
   A stall: ticket 0's task is abandoned without `finish_turn`, so ticket 1,
   saved and waiting, never gets its turn, and nothing but new requests can
   happen.
   */
  lemma AsWrittenStalls()
    ensures
      var s1 := NextAsWritten(Init, Enqueue).value;
      var s2 := NextAsWritten(s1, Enqueue).value;
      var s3 := NextAsWritten(s2, Take(Abandoned)).value;
      var s4 := NextAsWritten(s3, Take(Saved)).value;
      s4.coord.current < s4.coord.next &&
      forall step: Step :: !step.Enqueue? ==> NextAsWritten(s4, step).None?
  {
    var s1 := NextAsWritten(Init, Enqueue).value;
    var s2 := NextAsWritten(s1, Enqueue).value;
    assert s2.queue == [0, 1] && s2.coord == Coordinator(0, 2);
    var s3 := NextAsWritten(s2, Take(Abandoned)).value;
    assert s3.queue == [1] && s3.turns == map[];
    var s4 := NextAsWritten(s3, Take(Saved)).value;
    assert s4.queue == [] && s4.turns == map[1 := Waiting(true)] && s4.coord == Coordinator(0, 2);
  }

  /**
   A leaked file: the only task's save fails after the temporary file was
   created; every ticket is finished, yet the file is still on disk.
   */
  lemma AsWrittenLeaksFile()
    ensures
      var s1 := NextAsWritten(Init, Enqueue).value;
      var s2 := NextAsWritten(s1, Take(SaveFailed(true))).value;
      s2.coord.current == s2.coord.next && s2.files == {0}
  {
    var s1 := NextAsWritten(Init, Enqueue).value;
    assert s1.queue == [0];
  }
}

=== FILE: wrappers.dfy ===
/** Failure-carrying datatypes shared by the whole model. */
module Wrappers {

  /** Python's `None` versus a present value. */
  datatype Option<T> = None | Some(value: T)

  /** The value an operation returns, or the exception it raises. */
  datatype Result<T, E> = Ok(value: T) | Err(error: E)
}
